=== FILE: README.md ===
# Channel range editing and viewer event rules of the OMERO iviewer, in Dafny

This project models the decision rules of two components of the OMERO
iviewer web client:

- the **channel range** widget (`src/settings/channel-range.js`). It edits a
  channel's display window (start/end), colour and active flag. It also resets
  them when the channel settings mode changes, and it writes history records for
  the image configuration's undo history;
- the **ol3 viewer** wrapper (`src/viewers/ol3-viewer.js`). This covers the z/t
  play loop, the drawing-mode mapping, the plane switch before a shape
  selection, the validation of property-change and image-settings notifications,
  and the reconciliation of the regions map after shapes are stored.

Every operation is a pure transition over immutable records. It returns the
new state together with the history records it emits and the viewer calls it
makes. The embedded viewer is never modelled: its answers (render status,
`watchRenderStatus`) are inputs and its calls are output data. The browser's
timers are data too: `Player.PlayState.live` is the set of running intervals.

Modules:

| file | module | models |
|---|---|---|
| js_values.dfy | `JsValues` | the dynamically typed event parameters, and the `typeof` / `isArray` / truthiness tests |
| channel_range.dfy | `ChannelRange` | `onRangeChange`, `onRangeChangeBoth`, `toggleChannel`, `changeMode0`, `onColorChange`, slider bounds of `updateUI` |
| player.dfy | `Player` | `playDimension` and the interval tick |
| viewer_events.dfy | `ViewerEvents` | `drawShape`, `changeShapeSelection`, `getRegionsPropertyChange`, `changeImageSettings` |
| regions.dfy | `Regions` | `afterShapeStorage` |

Inputs taken as parameters:
- `getChannelMinMaxValues`: the full-range row and the present mode's row of the min/max table;
- `hasLookupTableEntry`: a boolean;
- `parseInt`: a function `string -> Option<int>`;
- the new ids from `setInterval`: a counter in the play state;
- the viewer's present z/t indices and render status: plain values.

## Model

| member | source | states |
|---|---|---|
| ChannelRange.StripWhitespace | src/settings/channel-range.js:508-509 | the stripped text has no whitespace, is no longer than the input and keeps only characters of the input |
| ChannelRange.StripWhitespaceAppend | src/settings/channel-range.js:508-509 | stripping distributes over concatenation, so it removes characters one by one and keeps the order of the rest |
| ChannelRange.StripWhitespaceIdentity | src/settings/channel-range.js:508-509 | text without whitespace is returned unchanged |
| ChannelRange.StripWhitespaceIdempotent | src/settings/channel-range.js:508-509 | stripping twice is the same as stripping once |
| ChannelRange.ReadInput | src/settings/channel-range.js:503-521 | numbers pass as they are. Text passes as the parse of its stripped form unless it is empty with replace-empty set, or unparseable. Any other type is ignored |
| ChannelRange.Clamp | src/settings/channel-range.js:536-545 | the exceeded flag is set exactly when the value lies outside [min, max]. An unflagged value is not moved |
| ChannelRange.OnRangeChange | src/settings/channel-range.js:498-581 | bad type, empty text (spinner restored to the old endpoint), unparseable text, out-of-range value and same value all leave the channel alone with no history. A change is accepted exactly when the read value is in the full range and differs from the endpoint. It then sets only that endpoint and records one entry (old endpoint to new value) whose path ends in 'start' or 'end'. The slider's new min is exactly the smaller of the new start and the mode's start min. For the end, its new max is the larger of the new end and the mode's end max. The other spinner's limit is the new value plus or minus 1 |
| ChannelRange.RangeChangeTwiceRecordsOnce | src/settings/channel-range.js:352-364 | the two blur handlers of the end spinner run one after the other. The second reads the spinner text the first left behind: the accepted value or the restored old value it wrote back, or the unchanged text after a rejection. The second run changes nothing, and the pair records at most one history entry. After an acceptance the second run finds the same value |
| ChannelRange.ProposedEndpoint | src/settings/channel-range.js:474-486 | the start is moved exactly when it differs from the slider's first value. A proposed start keeps the first value, or becomes the second value minus 1 when it is not below it. A proposed end keeps the second value, or becomes the first value plus 1 when it is not above it |
| ChannelRange.OnRangeChangeBoth | src/settings/channel-range.js:471-487 | does nothing unless it is triggered by the UI with an array. Otherwise only the window changes, with at most one history entry. A moved start handle changes only the start, and a change is accepted exactly when the fixed-up value lies in the full start range and differs from the start. The entry then records the old start and the new value. With the start handle in place, the same holds for the end |
| ChannelRange.RangeChangeBothKeepsOrder | src/settings/channel-range.js:471-487 | if the slider change moved one handle at most, an accepted window keeps start < end |
| ChannelRange.ToggleChannel | src/settings/channel-range.js:597-628 | in greyscale an active channel is not switched off and no history is written. Otherwise the flag flips and the first entry records it (old = !new). In greyscale every other channel ends inactive, so exactly this channel is active, with one true-to-false entry per channel switched off. In other models the other channels are untouched |
| ChannelRange.DeactivationsCount | src/settings/channel-range.js:614-627 | the number of deactivation entries equals the number of other channels that were active |
| ChannelRange.ChangeMode0 | src/settings/channel-range.js:182-217 | the window becomes the mode's start/end values. In IMPORTED mode, colour, reverse intensity, active, t, z, model and projection take the imported values. Otherwise nothing else changes |
| ChannelRange.ChangeMode0Idempotent | src/settings/channel-range.js:182-217 | a second reset to the same mode changes nothing further |
| ChannelRange.SliderBounds | src/settings/channel-range.js:292-300 | full-range mode uses the full range's start min and end max. Any other mode gives min(start_min, start_val) and max(end_max, end_val) |
| ChannelRange.ModeChangeSliderEnclosesWindow | src/settings/channel-range.js:162-166 | after a mode change other than to full range, the rebuilt slider encloses the reset window |
| ChannelRange.OnColorChange | src/settings/channel-range.js:392-405 | only the colour changes. A lookup table name is stored as given and a hex colour without its leading '#'. The history entry records the old and the new colour |
| ChannelRange.ColorRoundTrip | src/settings/channel-range.js:374-404 | a hex colour chosen in the picker is shown again unchanged when the picker is rebuilt from the stored colour |
| Player.ParseDim | src/viewers/ol3-viewer.js:847-850 | only the strings 'z' and 't' name a dimension |
| Player.StopFlag | src/viewers/ol3-viewer.js:862-863 | the stop flag defaults to true when it is not a boolean |
| Player.PlayDelay | src/viewers/ol3-viewer.js:876-878 | the tick delay is the requested one if it is a number of at least 100 ms, otherwise 250 ms, so it is always at least 100 |
| Player.StopPlay | src/viewers/ol3-viewer.js:853-860 | clears the held interval only, and resets dim, forwards and handle to null |
| Player.PlayDimension | src/viewers/ol3-viewer.js:844-894 | a request that is not for this viewer, has no boolean direction or has an unknown dim changes nothing. A stop clears the held loop and starts nothing. A loop in another dim or direction is stopped first. One in the same dim and direction is not cleared. A loop starts exactly when max index is not 0 and the present index is not at the bound in the play direction. It captures the requested dim, direction, bound and delay. A request that starts nothing either changes nothing or is exactly a stop. With no loop held, no stop call is made. A start that stopped nothing, whether from idle or over a same-direction loop, adds the new timer to all the running ones |
| Player.PlayDimensionFixed | src/viewers/ol3-viewer.js:865-894 | corrected version: any running loop is cleared before a new one starts. The live timers are exactly the old ones without the held loop, plus the new one. A request that starts nothing leaves player_info idle, or the state unchanged when nothing was playing. A start holds the new loop with the requested dim, direction, bound and delay |
| Player.Tick | src/viewers/ol3-viewer.js:896-915 | an IN_PROGRESS tick changes nothing. An ERROR status or a reached bound stops the loop. A rendered tick inside the bounds moves the index by exactly one in the play direction, never past the bound. The play state and the other index stay unchanged |
| Player.PlayRunsToBoundThenStops | src/viewers/ol3-viewer.js:896-915 | a loop that renders without error advances one index per tick until it reaches the last index (forwards) or the first (backwards). One more tick clears its timer and resets player_info |
| Player.TickStaysInBounds | src/viewers/ol3-viewer.js:904-914 | an index inside [0, max-1] stays inside after any tick |
| Player.StopDefaultsToTrue | src/viewers/ol3-viewer.js:862-874 | a request without a boolean stop flag behaves exactly as a stop request and starts no loop |
| Player.PlayDimensionWellFormed | src/viewers/ol3-viewer.js:852-894 | play requests keep player_info all-null or all-set. They keep the held handle among the running timers, with fresh ids and delays of at least 100 |
| Player.TickWellFormed | src/viewers/ol3-viewer.js:896-915 | ticks keep the same well-formedness |
| Player.StopLeavesIdle | src/viewers/ol3-viewer.js:853-874 | from a well-formed state a stop request resets player_info to null and removes only the held loop |
| Player.OrphanSurvivesRequests | src/viewers/ol3-viewer.js:853-871 | a running timer that player_info does not hold survives every play request |
| Player.OrphanSurvivesTicks | src/viewers/ol3-viewer.js:904-908 | a running timer that player_info does not hold survives every tick, including a tick that stops play |
| Player.SameDirectionRestartOrphansTimer | src/viewers/ol3-viewer.js:865-895 | two identical play requests leave two running timers, and player_info no longer holds the first |
| Player.PlayDimensionFixedKeepsSingleLoop | src/viewers/ol3-viewer.js:865-895 | with the fix, every request keeps the single held loop as the only running timer |
| Player.TickKeepsSingleLoop | src/viewers/ol3-viewer.js:896-915 | under that invariant every tick comes from the held loop and keeps the invariant |
| Player.FixedRestartReplacesTimer | src/viewers/ol3-viewer.js:865-895 | with the fix, the same two requests leave exactly one running timer |
| ViewerEvents.DrawingOptions | src/viewers/ol3-viewer.js:546-565 | NEITHER_Z_NOR_T gives [z,t], NOT_Z gives [z] and NOT_T gives [t], all with add. The ALL_* and CUSTOM modes give [] without add. Any other mode gives [] with add. Add is false exactly for propagating modes, and the list has no repeats |
| ViewerEvents.DrawShape | src/viewers/ol3-viewer.js:536-575 | a notification for another viewer makes no call. A true abort flag only aborts. Otherwise the draw call passes shape, ROI and history id through, with the mode's options |
| ViewerEvents.SwitchTo | src/viewers/ol3-viewer.js:447-456 | a switch is made exactly when the shape's index is numeric, not -1, and differs from the viewer's |
| ViewerEvents.ChangeShapeSelection | src/viewers/ol3-viewer.js:432-457 | the handler proceeds exactly when the notification is for this viewer, there is a viewer, and there is a non-empty shape array. The delay is 0, 25 or 50: 25 for each of T and Z switched. It is 0 with no switch when clear is falsy |
| ViewerEvents.SelectionReachesShapePlane | src/viewers/ol3-viewer.js:441-457 | after a clearing selection the viewer shows the shape's T and Z wherever the shape has them. The delay is 0 exactly when nothing moved |
| ViewerEvents.GetRegionsPropertyChange | src/viewers/ol3-viewer.js:294-328 | there are steps exactly when validation passes. Then there is one step per shape, pairing it with the i-th or the single property and value. Only selected, modified, deleted and visible are written, and the callback runs per shape when it is a function |
| ViewerEvents.SinglePropertyAppliesToAll | src/viewers/ol3-viewer.js:314-321 | a single property name applies to every shape, and it is written for all of them or for none |
| ViewerEvents.ChangeImageSettings | src/viewers/ol3-viewer.js:249-264 | no call is made exactly when validation fails. Each of model, projection and ranges is passed on exactly when it has the right type, at most once each, in that order |
| Regions.RemoveShape | src/viewers/ol3-viewer.js:704-715 | the entry is gone, its ROI is removed exactly when no other shape is left in it, and every other entry is unchanged |
| Regions.SyncShape | src/viewers/ol3-viewer.js:673-723 | unknown ids are skipped. A kept shape ends unmodified. A deleted old shape leaves the map, with its ROI if that is left empty, and leaves the shape count. A hidden one also corrects the visibility toggles. A new shape moves to its stored ROI/shape id, no longer new or modified, without touching the counters. Every entry other than the shape's own is unchanged. The only exception is the stored id of a new shape. The only ROI changes are the removal of the emptied old ROI and the appearance of a moved shape's new ROI |
| Regions.SyncShapeKeepsRois | src/viewers/ol3-viewer.js:673-723 | a step keeps every ROI's show and deleted fields, and a ROI it creates for a moved new shape starts empty and hidden |
| Regions.SyncAll | src/viewers/ol3-viewer.js:671-724 | the acknowledged ids come from the answer, at most one per pair. The shape count only goes down, by at most one per pair. The visibility toggles only go up, and by no more than the count went down |
| Regions.AfterShapeStorage | src/viewers/ol3-viewer.js:663-742 | the modal is always hidden. Another viewer's notification, a missing shapes object, or omit_client_update changes nothing. Otherwise the map is reconciled pair by pair and the history is pruned to the acknowledged ids on a delete, reset otherwise. An error string shows one error message |
| Regions.ErrorMessageChoice | src/viewers/ol3-viewer.js:734-738 | the permissions message is shown exactly when 'SecurityViolation' occurs at some position of the error text |
| Regions.ContainsOccurs | src/viewers/ol3-viewer.js:736 | the `indexOf(sub) !== -1` test holds exactly when `sub` occurs at some position of the text |
| Regions.NewShapeRekeyed | src/viewers/ol3-viewer.js:683-703 | storing a new shape re-inserts it under its new id, no longer new or modified. The old entry is removed and the count is unchanged |
| Regions.ModifiedOnlySave | src/viewers/ol3-viewer.js:671-724 | when every stored shape was only modified, all ids are acknowledged and every shape stays with modified cleared. ROIs and counters are unchanged |
| Regions.ModifiedOnlySaveFrame | src/viewers/ol3-viewer.js:671-724 | in that case, shapes not named in the answer are left alone |
| Regions.ModifiedOnlySaveTotals | src/viewers/ol3-viewer.js:671-724 | in that case, the acknowledged ids are the answer's ids in order, and the ROI set and both counters are unchanged |
| Regions.ModifiedOnlySaveAt | src/viewers/ol3-viewer.js:673-681 | in that case, every shape named in the answer ends as it was with modified cleared, whichever of its pairs came last |
| Regions.SyncShapeClears | src/viewers/ol3-viewer.js:673-723 | one step leaves the acknowledged id without an entry or unmodified. Every entry it writes is unmodified |
| Regions.SyncAllKeepsCleared | src/viewers/ol3-viewer.js:671-724 | an id with no entry or an unmodified one stays that way through the rest of the loop |
| Regions.SyncAllClearsAcknowledged | src/viewers/ol3-viewer.js:671-724 | for any mix of new, deleted and modified shapes, every acknowledged id ends with no entry or unmodified |

## Findings

| source | as written | input that shows it | evidently intended | confidence | as-written member | corrected member |
|---|---|---|---|---|---|---|
| src/viewers/ol3-viewer.js:865-895 | a play request without stop, while a loop runs in the same dim and direction, starts a second `setInterval` and overwrites `player_info.handle` without clearing the first. Later stops clear only the held handle, so the first timer keeps firing for good | two identical requests `{dim: 'z', forwards: true, stop: false}` with z = 0 and max_z = 5 | stop the running loop before starting a new one (or ignore the request), so that only one play timer runs | not executed; medium | Player.SameDirectionRestartOrphansTimer | Player.PlayDimensionFixedKeepsSingleLoop |

## Left out

- jQuery spinner, slider and colour-picker setup and teardown, and CSS/background styling in `updateUI`, `detached` and `setBackgroundAfterColorChange`: these are DOM manipulation. Only the slider bounds and the spinner/slider limits that `onRangeChange` sets are kept.
- Timers and throttling: the 100 ms histogram debounce during a slide, and the `setTimeout` that defers the selection call. The play interval is modelled as data plus an explicit tick step.
- Every call into `ol3.Viewer` (rendering, shape generation, storage requests, `selectShapes`, `abortDrawing`). Where a handler's decision is modelled, the call it makes is returned as data.
- Aurelia lifecycle hooks, the event subscription table, property observers, the asynchronous `requestImportedData`, and the `changeMode` wrapper that calls `changeMode0` and then `updateUI`.
- The other handlers of `ol3-viewer.js`, which mostly forward parameters to the viewer library: `initViewer`, `changeDimension`, `resizeViewer`, `setRegionsProperty`, `generateShapes`, `deleteShapes`, `getImageSettings`, `changeRegionsModes`, `initRegions`, `toggleSplitChannels`, `modifyShapes`, `showComments` and `affectHistoryAction`.
- Three handlers that change state outside the parts modelled here: `addHistoryEntry` writes the regions history, `storeShapes` opens a confirmation dialog and publishes REGIONS_STORED_SHAPES, and `copyShapeDefinitions` fills `regions_info.copied_shapes` and writes localStorage. They belong to the regions-info object, the dialog and the event bus.
- `onReverseIntensityToggle`: it writes a history entry for a flag the template has already changed, then rebuilds the widgets with `updateUI`, which is DOM work only.
- `getChannelMinMaxValues`, `hasLookupTableEntry`, `Converters.extractRoiAndShapeId`, `Converters.amendShapeDefinition`, and the regions history object (`removeEntries`, `resetHistory`) are not part of this model. They are taken as inputs, or their effect is returned as a `HistoryAction`.
- The callback arguments of `getRegionsPropertyChange` (the shape reference or its copy, and its previous modified flag) and the regions-info side of `setPropertyForShape`: they belong to the regions-info object.
- `plugin/ol3-viewer/views.py` (server-side Django views), `src/app/index.js` (window handlers) and `webpack.prod.config.js` (build configuration).
- ChannelRange.ReadInput: `parseInt` is an abstract parser applied to the stripped text. Its prefix parsing, hex prefixes and NaN results are not modelled, and JavaScript numbers are integers, so fractional or NaN inputs are not covered.
- ChannelRange.OnRangeChange: exceptions thrown by the spinner/slider calls inside the `try` block are not modelled. Such an exception would skip the history record after the window was already written.
- ChannelRange.OnRangeChangeBoth: the slider's values are modelled as two integers. Arrays with fewer or non-numeric elements cannot occur with the jQuery UI range slider.
- ChannelRange.ToggleChannel: requires the channel index to lie inside the image's channel list, because the widget's channel is that list's entry.
- ChannelRange.ChangeMode0: in IMPORTED mode it requires an imported entry for the channel; without one the source would fail on the missing entry.
- ViewerEvents.ChangeShapeSelection: the shape lookup is replaced by the shape's TheT/TheZ values passed in, so a missing shape (which would throw) is not modelled.
- ViewerEvents.GetRegionsPropertyChange: the `typeof params !== 'object'` test is not modelled, because the handler always receives an object.
- Regions.SyncShape: the re-keying property is stated for new shapes whose stored id differs from the temporary one. If the two ids were equal, the new entry would be removed again.
- Regions.SyncAll: its contract bounds the counters but does not give the exact shape count (the old count minus the acknowledged deleted shapes that were not new). That number depends on the state at each step, so it would restate the loop. The per-shape effects are stated by SyncShape, by SyncAllClearsAcknowledged for any answer, and by the two ModifiedOnlySave lemmas for answers of modified shapes only.
- ChannelRange.RangeChangeTwiceRecordsOnce: the spinner's formatting of a number is abstract. The lemma assumes the text the second handler reads is non-empty and parses back to the value the first handler wrote.
- Under the model's `getShape` (a lookup in the shape's own ROI), the ROI read at line 713 always exists when a shape was found, so the undefined-ROI dereference there cannot arise and needs no precondition.

=== FILE: channel_range.dfy ===
/**
 The channel range widget: editing one channel's display window (start/end),
 its colour and its active flag, and resetting them when the channel settings
 mode changes. Every edit is a pure transition from the channel state and the
 min/max table of the image to the new state plus the history records the
 widget hands to the image configuration's undo history.

 The min/max table (`getChannelMinMaxValues`), the lookup-table test
 (`hasLookupTableEntry`) and `parseInt` are the image configuration's and the
 browser's; they come in as parameters.
 */
module ChannelRange {
  import opened JsValues

  /** The display window of a channel. */
  datatype Window = Window(start: int, end: int)

  /** The channel settings the widget edits. */
  datatype Channel = Channel(window: Window, color: string, active: bool, reverseIntensity: bool)

  /** One row of the image's min/max table for a given settings mode and channel. */
  datatype MinMaxValues = MinMaxValues(
    startMin: int, startMax: int,
    endMin: int, endMax: int,
    startVal: int, endVal: int)

  /** The channel settings modes. */
  datatype SettingsMode = MinMax | FullRange | Imported

  /** A segment of a history property path; the channel index is written `'' + index` in the path. */
  datatype Segment = Key(name: string) | Index(i: nat)

  /** A value recorded in a history entry, tagged with its history `type`. */
  datatype HistValue = NumberVal(n: int) | StringVal(s: string) | BooleanVal(b: bool)

  /** A record of the image configuration's undo history. */
  datatype HistoryEntry = HistoryEntry(prop: seq<Segment>, oldVal: HistValue, newVal: HistValue)

  /** The property path `['image_info', 'channels', '' + index] + tail`. */
  function ChannelPath(index: nat, tail: seq<Segment>): seq<Segment>
  {
    [Key("image_info"), Key("channels"), Index(index)] + tail
  }

  function EndpointName(isStart: bool): string
  {
    if isStart then "start" else "end"
  }

  function WindowEntry(index: nat, isStart: bool, oldValue: int, newValue: int): HistoryEntry
  {
    HistoryEntry(ChannelPath(index, [Key("window"), Key(EndpointName(isStart))]),
                 NumberVal(oldValue), NumberVal(newValue))
  }

  function ActiveEntry(index: nat, oldValue: bool, newValue: bool): HistoryEntry
  {
    HistoryEntry(ChannelPath(index, [Key("active")]), BooleanVal(oldValue), BooleanVal(newValue))
  }

  function ColorEntry(index: nat, oldValue: string, newValue: string): HistoryEntry
  {
    HistoryEntry(ChannelPath(index, [Key("color")]), StringVal(oldValue), StringVal(newValue))
  }

  // ---------------------------------------------------------------------------
  // Input sanitising
  // ---------------------------------------------------------------------------

  /** The characters matched by the regular expression class `\s`. */
  predicate IsWhitespace(c: char)
  {
    || c == ' ' || c == '\t' || c == '\n' || c == '\r'
    || c == '\U{000B}' || c == '\U{000C}' || c == '\U{00A0}' || c == '\U{1680}'
    || ('\U{2000}' <= c <= '\U{200A}')
    || c == '\U{2028}' || c == '\U{2029}' || c == '\U{202F}' || c == '\U{205F}'
    || c == '\U{3000}' || c == '\U{FEFF}'
  }

  /** `s.replace(/\s/g, "")`: the text with every whitespace character removed. */
  function StripWhitespace(s: string): (r: string)
    ensures |r| <= |s|
    ensures forall i :: 0 <= i < |r| ==> !IsWhitespace(r[i])
    ensures forall i :: 0 <= i < |r| ==> r[i] in s
    decreases |s|
  {
    if |s| == 0 then ""
    else if IsWhitespace(s[0]) then StripWhitespace(s[1..])
    else [s[0]] + StripWhitespace(s[1..])
  }

  /** Stripping distributes over concatenation, so it acts character by character. */
  lemma {:induction false} StripWhitespaceAppend(a: string, b: string)
    ensures StripWhitespace(a + b) == StripWhitespace(a) + StripWhitespace(b)
    decreases |a|
  {
    if |a| == 0 {
      assert a + b == b;
    } else {
      assert (a + b)[0] == a[0];
      assert (a + b)[1..] == a[1..] + b;
      StripWhitespaceAppend(a[1..], b);
    }
  }

  /** Text without whitespace is left as it is; in particular stripping is idempotent. */
  lemma {:induction false} StripWhitespaceIdentity(s: string)
    requires forall i :: 0 <= i < |s| ==> !IsWhitespace(s[i])
    ensures StripWhitespace(s) == s
    decreases |s|
  {
    if |s| > 0 {
      StripWhitespaceIdentity(s[1..]);
    }
  }

  lemma StripWhitespaceIdempotent(s: string)
    ensures StripWhitespace(StripWhitespace(s)) == StripWhitespace(s)
  {
  }

  // ---------------------------------------------------------------------------
  // onRangeChange
  // ---------------------------------------------------------------------------

  /** What the range handler reports back to the widget besides the new state. */
  datatype RangeStatus =
    | Ignored                     // the handler returned before looking at the value
    | EmptyRestored(shown: int)   // empty text: the spinner is reset to the old endpoint
    | NotANumber                  // unparseable text: the input is flagged red
    | OutOfBounds                 // outside the full range: the input is flagged red
    | SameValue                   // the endpoint already has this value
    | Accepted(otherSpinnerLimit: int, sliderLimit: int)
      // the endpoint was written; the other spinner's min (start) or max (end)
      // and the slider's min (start) or max (end) are moved to these values

  datatype RangeChange = RangeChange(channel: Channel, history: seq<HistoryEntry>, status: RangeStatus)

  /** The outcome of the sanity checks on a raw input. */
  datatype Reading = Value(n: int) | NoValue(status: RangeStatus)

  /** The sanity checks: numbers pass, text is stripped and parsed, anything else is ignored. */
  function ReadInput(value: JsValue, replaceEmpty: bool, oldValue: int, parse: string -> Option<int>): (r: Reading)
    ensures r.NoValue? ==> r.status.Ignored? || r.status.EmptyRestored? || r.status.NotANumber?
    ensures r.Value? <==>
              (value.Num? ||
               (value.Str? && !(|StripWhitespace(value.s)| == 0 && replaceEmpty)
                && parse(StripWhitespace(value.s)).Some?))
    ensures r.Value? && value.Str? ==> parse(StripWhitespace(value.s)) == Some(r.n)
    ensures r.Value? && value.Num? ==> r.n == value.n
    ensures r == NoValue(Ignored) <==> !(IsNumber(value) || IsString(value))
  {
    match value
    case Num(n) => Value(n)
    case Str(s) =>
      var t := StripWhitespace(s);
      if |t| == 0 && replaceEmpty then NoValue(EmptyRestored(oldValue))
      else (match parse(t)
            case None => NoValue(NotANumber)
            case Some(n) => Value(n))
    case _ => NoValue(Ignored)
  }

  /** The clamping of a value to [min, max]; the flag tells whether it had to move. */
  function Clamp(value: int, min: int, max: int): (r: (int, bool))
    ensures r.1 <==> (value < min || max < value)
    ensures !r.1 ==> r.0 == value
    ensures min <= max ==> min <= r.0 <= max
  {
    var (v, exceeded) := if value < min then (min, true) else (value, false);
    if v > max then (max, true) else (v, exceeded)
  }

  function Endpoint(w: Window, isStart: bool): int
  {
    if isStart then w.start else w.end
  }

  function SetEndpoint(w: Window, isStart: bool, v: int): (r: Window)
    ensures Endpoint(r, isStart) == v
    ensures Endpoint(r, !isStart) == Endpoint(w, !isStart)
  {
    if isStart then w.(start := v) else w.(end := v)
  }

  /** The full-range limits that apply to the chosen endpoint. */
  function Lower(full: MinMaxValues, isStart: bool): int
  {
    if isStart then full.startMin else full.endMin
  }

  function Upper(full: MinMaxValues, isStart: bool): int
  {
    if isStart then full.startMax else full.endMax
  }

  /**
   `onRangeChange(value, is_start, replace_empty_value)` for the channel at
   `index`: `full` is the full-range row of the min/max table, `current` the row
   for the present settings mode.
   */
  function OnRangeChange(ch: Channel, full: MinMaxValues, current: MinMaxValues, index: nat,
                         value: JsValue, isStart: bool, replaceEmpty: bool,
                         parse: string -> Option<int>): (r: RangeChange)
    // nothing but the window can change, and only on acceptance
    ensures r.channel.(window := ch.window) == ch
    ensures !r.status.Accepted? ==> r.channel == ch && r.history == []
    // the rejections, each leaving the window alone
    ensures !(IsNumber(value) || IsString(value)) ==> r.status == Ignored
    ensures value.Str? && |StripWhitespace(value.s)| == 0 && replaceEmpty ==>
              r.status == EmptyRestored(Endpoint(ch.window, isStart))
    ensures (value.Str? && !(|StripWhitespace(value.s)| == 0 && replaceEmpty)
             && parse(StripWhitespace(value.s)).None?) ==> r.status == NotANumber
    ensures value.Num? && (value.n < Lower(full, isStart) || Upper(full, isStart) < value.n) ==>
              r.status == OutOfBounds
    ensures (value.Num? && Lower(full, isStart) <= value.n <= Upper(full, isStart)
             && value.n == Endpoint(ch.window, isStart)) ==> r.status == SameValue
    // acceptance: exactly the in-range values that differ from the endpoint
    ensures r.status.Accepted? <==>
              (ReadInput(value, replaceEmpty, Endpoint(ch.window, isStart), parse).Value? &&
               var v := ReadInput(value, replaceEmpty, Endpoint(ch.window, isStart), parse).n;
               Lower(full, isStart) <= v <= Upper(full, isStart) && v != Endpoint(ch.window, isStart))
    ensures r.status.Accepted? ==>
              var v := ReadInput(value, replaceEmpty, Endpoint(ch.window, isStart), parse).n;
              && r.channel.window == SetEndpoint(ch.window, isStart, v)
              && Endpoint(r.channel.window, !isStart) == Endpoint(ch.window, !isStart)
              && r.history == [WindowEntry(index, isStart, Endpoint(ch.window, isStart), v)]
              && r.history[0].prop[|r.history[0].prop| - 1] == Key(EndpointName(isStart))
              && (isStart ==> r.status.sliderLimit <= v && r.status.sliderLimit <= current.startMin
                              && r.status.sliderLimit == (if v < current.startMin then v else current.startMin)
                              && r.status.otherSpinnerLimit == v + 1)
              && (!isStart ==> r.status.sliderLimit >= v && r.status.sliderLimit >= current.endMax
                               && r.status.sliderLimit == (if v > current.endMax then v else current.endMax)
                               && r.status.otherSpinnerLimit == v - 1)
  {
    var oldValue := Endpoint(ch.window, isStart);
    match ReadInput(value, replaceEmpty, oldValue, parse)
    case NoValue(st) => RangeChange(ch, [], st)
    case Value(v) =>
      var sliderMin := if isStart then current.startMin else current.endMin;
      var sliderMax := if isStart then current.startMax else current.endMax;
      var (_, exceeded) := Clamp(v, Lower(full, isStart), Upper(full, isStart));
      if exceeded then RangeChange(ch, [], OutOfBounds)
      else if v == oldValue then RangeChange(ch, [], SameValue)
      else
        var status :=
          if isStart then Accepted(v + 1, if v < sliderMin then v else sliderMin)
          else Accepted(v - 1, if v > sliderMax then v else sliderMax);
        RangeChange(ch.(window := SetEndpoint(ch.window, isStart, v)),
                    [WindowEntry(index, isStart, oldValue, v)], status)
  }

  /**
   Both blur handlers of the end spinner fire for one blur. The second reads the
   spinner text as the first left it: the numeral of the accepted value or of
   the restored old value when the first one wrote it back, the original text
   otherwise. The
   second application then changes nothing, and the pair records at most one
   history entry.
   */
  lemma RangeChangeTwiceRecordsOnce(ch: Channel, full: MinMaxValues, current: MinMaxValues, index: nat,
                                    value: JsValue, isStart: bool, replaceEmpty: bool,
                                    parse: string -> Option<int>, second: JsValue)
    requires var r1 := OnRangeChange(ch, full, current, index, value, isStart, replaceEmpty, parse);
             && (r1.status.Accepted? ==>
                   second.Str? && |StripWhitespace(second.s)| > 0
                   && parse(StripWhitespace(second.s)) == Some(Endpoint(r1.channel.window, isStart)))
             && (r1.status.EmptyRestored? ==>
                   second.Str? && parse(StripWhitespace(second.s)) == Some(r1.status.shown))
             && (!r1.status.Accepted? && !r1.status.EmptyRestored? ==> second == value)
    ensures var r1 := OnRangeChange(ch, full, current, index, value, isStart, replaceEmpty, parse);
            var r2 := OnRangeChange(r1.channel, full, current, index, second, isStart, replaceEmpty, parse);
            && r2.channel == r1.channel
            && r2.history == []
            && |r1.history + r2.history| <= 1
            && (r1.status.Accepted? ==> r2.status == SameValue)
  {
    var r1 := OnRangeChange(ch, full, current, index, value, isStart, replaceEmpty, parse);
    var r2 := OnRangeChange(r1.channel, full, current, index, second, isStart, replaceEmpty, parse);
    if r1.status.Accepted? || r1.status.EmptyRestored? {
      var n := parse(StripWhitespace(second.s)).value;
      assert n == Endpoint(r1.channel.window, isStart);
      assert !r2.status.Accepted?;
    } else {
      assert r1.channel == ch;
    }
  }

  // ---------------------------------------------------------------------------
  // onRangeChangeBoth
  // ---------------------------------------------------------------------------

  /** The two handle values a slider change reports. */
  datatype SliderValues = SliderValues(lo: int, hi: int)

  /** Which endpoint a slider change moves, and the value it proposes after the ordering fix-up. */
  function ProposedEndpoint(ch: Channel, v: SliderValues): (p: (bool, int))
    ensures p.0 <==> ch.window.start != v.lo
    // the moved handle keeps its value unless it reached the other one; then it is put one step inside
    ensures p.0 ==> p.1 < v.hi && (v.lo < v.hi ==> p.1 == v.lo) && (v.lo >= v.hi ==> p.1 == v.hi - 1)
    ensures !p.0 ==> v.lo < p.1 && (v.lo < v.hi ==> p.1 == v.hi) && (v.hi <= v.lo ==> p.1 == v.lo + 1)
  {
    if ch.window.start != v.lo then
      (true, if v.lo >= v.hi then v.hi - 1 else v.lo)
    else
      (false, if v.hi <= v.lo then v.lo + 1 else v.hi)
  }

  /** The parser is never consulted for the numbers a slider reports. */
  function NoParse(s: string): Option<int> { None }

  /**
   `onRangeChangeBoth(values, ui_triggered)`: `values` is `None` when the
   argument is not an array.
   */
  function OnRangeChangeBoth(ch: Channel, full: MinMaxValues, current: MinMaxValues, index: nat,
                             values: Option<SliderValues>, uiTriggered: bool): (r: RangeChange)
    ensures !uiTriggered || values.None? ==> r == RangeChange(ch, [], Ignored)
    // only the window can change, by at most one recorded step
    ensures uiTriggered && values.Some? ==> r.channel.(window := ch.window) == ch && |r.history| <= 1
    ensures uiTriggered && values.Some? && !r.status.Accepted? ==> r.channel == ch && r.history == []
    // a moved start handle changes the start only, to the fixed-up lower value
    ensures uiTriggered && values.Some? && ch.window.start != values.value.lo ==>
              var v := values.value;
              var proposed := if v.lo >= v.hi then v.hi - 1 else v.lo;
              && r.channel.window.end == ch.window.end
              && (r.status.Accepted? <==>
                    full.startMin <= proposed <= full.startMax && proposed != ch.window.start)
              && (r.status.Accepted? ==>
                    && r.channel.window.start == proposed
                    && r.history == [WindowEntry(index, true, ch.window.start, proposed)])
    // otherwise the end changes only, to the fixed-up upper value
    ensures uiTriggered && values.Some? && ch.window.start == values.value.lo ==>
              var v := values.value;
              var proposed := if v.hi <= v.lo then v.lo + 1 else v.hi;
              && r.channel.window.start == ch.window.start
              && (r.status.Accepted? <==>
                    full.endMin <= proposed <= full.endMax && proposed != ch.window.end)
              && (r.status.Accepted? ==>
                    && r.channel.window.end == proposed
                    && r.history == [WindowEntry(index, false, ch.window.end, proposed)])
  {
    if !uiTriggered || values.None? then RangeChange(ch, [], Ignored)
    else
      var (isStart, v) := ProposedEndpoint(ch, values.value);
      OnRangeChange(ch, full, current, index, Num(v), isStart, false, NoParse)
  }

  /**
   A slider change that moves at most one handle away from the window keeps an
   accepted window ordered: the moved endpoint stays strictly on its side of the
   other one.
   */
  lemma RangeChangeBothKeepsOrder(ch: Channel, full: MinMaxValues, current: MinMaxValues, index: nat,
                                  v: SliderValues)
    requires ch.window.start == v.lo || ch.window.end == v.hi
    ensures var r := OnRangeChangeBoth(ch, full, current, index, Some(v), true);
            r.status.Accepted? ==> r.channel.window.start < r.channel.window.end
  {
  }

  // ---------------------------------------------------------------------------
  // toggleChannel
  // ---------------------------------------------------------------------------

  const Greyscale: string := "greyscale"

  /** The indices of the active channels. */
  function ActiveIndices(cs: seq<Channel>): (s: set<nat>)
    ensures forall i :: i in s <==> 0 <= i < |cs| && cs[i].active
  {
    set i: nat | i < |cs| && cs[i].active
  }

  /**
   The history entries for deactivating, in index order, every active channel
   from position `from` on other than `index`.
   */
  function Deactivations(cs: seq<Channel>, index: nat, from: nat): (h: seq<HistoryEntry>)
    requires from <= |cs|
    ensures |h| <= |cs| - from
    decreases |cs| - from
  {
    if from == |cs| then []
    else (if from != index && cs[from].active then [ActiveEntry(from, true, false)] else [])
         + Deactivations(cs, index, from + 1)
  }

  /**
   `toggleChannel()` on the channel at `index` of the image's channel list, under
   colour model `model`. Returns the new channel list and the history batch.
   */
  method ToggleChannel(channels: seq<Channel>, index: nat, model: string)
    returns (r: seq<Channel>, history: seq<HistoryEntry>)
    requires index < |channels|
    ensures |r| == |channels|
    // greyscale refuses to switch off its active channel
    ensures model == Greyscale && channels[index].active ==> r == channels && history == []
    // otherwise the flag is flipped and recorded first
    ensures !(model == Greyscale && channels[index].active) ==>
              && r[index] == channels[index].(active := !channels[index].active)
              && |history| >= 1
              && history[0] == ActiveEntry(index, !r[index].active, r[index].active)
    // greyscale: every other channel ends inactive, one entry per channel switched off
    ensures model == Greyscale && !channels[index].active ==>
              && (forall i :: 0 <= i < |r| && i != index ==> r[i] == channels[i].(active := false))
              && ActiveIndices(r) == {index}
              && history == [ActiveEntry(index, false, true)] + Deactivations(channels, index, 0)
    // other models: nothing else is touched
    ensures model != Greyscale ==>
              && (forall i :: 0 <= i < |r| && i != index ==> r[i] == channels[i])
              && history == [ActiveEntry(index, channels[index].active, !channels[index].active)]
  {
    if model == Greyscale && channels[index].active {
      return channels, [];
    }
    var toggled := channels[index].(active := !channels[index].active);
    r := channels[index := toggled];
    history := [ActiveEntry(index, !toggled.active, toggled.active)];
    if model == Greyscale {
      var i := 0;
      while i < |r|
        invariant 0 <= i <= |r| == |channels|
        invariant r[index] == toggled
        invariant |history| >= 1 && history[0] == ActiveEntry(index, false, true)
        invariant forall j :: 0 <= j < i && j != index ==> r[j] == channels[j].(active := false)
        invariant forall j :: i <= j < |r| && j != index ==> r[j] == channels[j]
        invariant history + Deactivations(channels, index, i)
                  == [ActiveEntry(index, false, true)] + Deactivations(channels, index, 0)
      {
        if i != index && r[i].active {
          r := r[i := r[i].(active := false)];
          history := history + [ActiveEntry(i, true, false)];
        }
        i := i + 1;
      }
      assert forall j :: j in ActiveIndices(r) <==> j == index;
    }
  }

  /** The active channels at position `from` or later, other than `index`. */
  function OtherActive(cs: seq<Channel>, index: nat, from: nat): set<nat>
  {
    set i: nat | from <= i < |cs| && i != index && cs[i].active
  }

  /** There is one deactivation entry per other active channel. */
  lemma {:induction false} DeactivationsCount(cs: seq<Channel>, index: nat, from: nat)
    requires from <= |cs|
    ensures |Deactivations(cs, index, from)| == |OtherActive(cs, index, from)|
    decreases |cs| - from
  {
    if from < |cs| {
      DeactivationsCount(cs, index, from + 1);
      if from != index && cs[from].active {
        assert OtherActive(cs, index, from) == OtherActive(cs, index, from + 1) + {from};
      } else {
        assert OtherActive(cs, index, from) == OtherActive(cs, index, from + 1);
      }
    } else {
      assert OtherActive(cs, index, from) == {};
    }
  }

  // ---------------------------------------------------------------------------
  // changeMode0
  // ---------------------------------------------------------------------------

  /** The image-wide settings a mode change to IMPORTED resets. */
  datatype ImageSettings = ImageSettings(t: int, z: int, model: string, projection: string)

  datatype ImportedChannel = ImportedChannel(color: string, reverseIntensity: bool, active: bool)

  /** The image's imported rendering settings (`imported_settings`). */
  datatype ImportedSettings = ImportedSettings(c: seq<ImportedChannel>, t: int, z: int, m: string, p: string)

  /**
   `changeMode0(mode)`: `modeValues` is the min/max row for the new mode.
   In IMPORTED mode the imported settings must hold an entry for the channel.
   */
  function ChangeMode0(ch: Channel, img: ImageSettings, mode: SettingsMode, modeValues: MinMaxValues,
                       imported: ImportedSettings, index: nat): (r: (Channel, ImageSettings))
    requires mode == Imported ==> index < |imported.c|
    ensures r.0.window == Window(modeValues.startVal, modeValues.endVal)
    ensures mode == Imported ==>
              && r.0.color == imported.c[index].color
              && r.0.reverseIntensity == imported.c[index].reverseIntensity
              && r.0.active == imported.c[index].active
              && r.1 == ImageSettings(imported.t, imported.z, imported.m, imported.p)
    ensures mode != Imported ==> r.0 == ch.(window := r.0.window) && r.1 == img
  {
    var w := Window(modeValues.startVal, modeValues.endVal);
    if mode == Imported then
      var ic := imported.c[index];
      (Channel(w, ic.color, ic.active, ic.reverseIntensity),
       ImageSettings(imported.t, imported.z, imported.m, imported.p))
    else
      (ch.(window := w), img)
  }

  /** Resetting to a mode a second time changes nothing further. */
  lemma ChangeMode0Idempotent(ch: Channel, img: ImageSettings, mode: SettingsMode, modeValues: MinMaxValues,
                              imported: ImportedSettings, index: nat)
    requires mode == Imported ==> index < |imported.c|
    ensures var r := ChangeMode0(ch, img, mode, modeValues, imported, index);
            ChangeMode0(r.0, r.1, mode, modeValues, imported, index) == r
  {
  }

  // ---------------------------------------------------------------------------
  // Slider bounds (updateUI)
  // ---------------------------------------------------------------------------

  datatype Bounds = Bounds(min: int, max: int)

  /** The slider's min and max as `updateUI` sets them for the present mode. */
  function SliderBounds(mode: SettingsMode, full: MinMaxValues, current: MinMaxValues): (b: Bounds)
    ensures mode == FullRange ==> b == Bounds(full.startMin, full.endMax)
    ensures mode != FullRange ==>
              && b.min <= current.startVal && b.min <= current.startMin
              && (b.min == current.startVal || b.min == current.startMin)
              && b.max >= current.endVal && b.max >= current.endMax
              && (b.max == current.endVal || b.max == current.endMax)
  {
    if mode == FullRange then Bounds(full.startMin, full.endMax)
    else
      Bounds(if current.startVal > current.startMin then current.startMin else current.startVal,
             if current.endVal < current.endMax then current.endMax else current.endVal)
  }

  /**
   After a mode change (other than to FULL_RANGE) the slider that `updateUI`
   rebuilds encloses the reset window.
   */
  lemma ModeChangeSliderEnclosesWindow(ch: Channel, img: ImageSettings, mode: SettingsMode,
                                       full: MinMaxValues, modeValues: MinMaxValues,
                                       imported: ImportedSettings, index: nat)
    requires mode == Imported ==> index < |imported.c|
    requires mode != FullRange
    ensures var w := ChangeMode0(ch, img, mode, modeValues, imported, index).0.window;
            var b := SliderBounds(mode, full, modeValues);
            b.min <= w.start && w.end <= b.max
  {
  }

  // ---------------------------------------------------------------------------
  // onColorChange
  // ---------------------------------------------------------------------------

  /** The colour the picker shows for a stored channel colour. */
  function PickerColor(color: string, isLut: bool): string
  {
    if isLut then "#fff" else "#" + color
  }

  /**
   `onColorChange(value)`: `isLut` is the image configuration's answer to
   whether `value` names a lookup table.
   */
  function OnColorChange(ch: Channel, index: nat, value: string, isLut: bool): (r: (Channel, HistoryEntry))
    ensures r.0 == ch.(color := r.0.color)
    ensures isLut ==> r.0.color == value
    ensures !isLut && |value| > 0 ==> [value[0]] + r.0.color == value
    ensures !isLut && |value| == 0 ==> r.0.color == ""
    ensures r.1 == ColorEntry(index, ch.color, r.0.color)
  {
    var color := if isLut then value else if |value| == 0 then "" else value[1..];
    (ch.(color := color), ColorEntry(index, ch.color, color))
  }

  /** A hex colour chosen in the picker is shown again, unchanged, when the widget is rebuilt. */
  lemma ColorRoundTrip(ch: Channel, index: nat, hex: string)
    ensures PickerColor(OnColorChange(ch, index, "#" + hex, false).0.color, false) == "#" + hex
  {
  }
}

=== FILE: js_values.dfy ===
/**
 The dynamically typed values that arrive in the viewer's event parameters and
 widget callbacks, and the `typeof` / `Misc.isArray` tests the handlers apply to
 them before acting.

 JavaScript numbers are modelled as mathematical integers: the handlers only
 compare, increment and store them.
 */
module JsValues {

  /** An optional value, standing for `null` / `undefined` where the source uses them as "absent". */
  datatype Option<+T> = None | Some(value: T)

  /** A JavaScript value as far as the handlers inspect it. */
  datatype JsValue =
    | Undefined
    | Null
    | Bool(b: bool)
    | Num(n: int)
    | Str(s: string)
    | Arr(items: seq<JsValue>)
    | Obj
    | Fn

  /** `typeof v === 'number'` */
  predicate IsNumber(v: JsValue) { v.Num? }

  /** `typeof v === 'string'` */
  predicate IsString(v: JsValue) { v.Str? }

  /** `typeof v === 'boolean'` */
  predicate IsBoolean(v: JsValue) { v.Bool? }

  /** `typeof v === 'function'` */
  predicate IsFunction(v: JsValue) { v.Fn? }

  /** `Misc.isArray(v)` */
  predicate IsArray(v: JsValue) { v.Arr? }

  /** JavaScript truthiness, as `if (v)` tests it (NaN is not modelled). */
  predicate Truthy(v: JsValue)
  {
    match v
    case Undefined => false
    case Null => false
    case Bool(b) => b
    case Num(n) => n != 0
    case Str(s) => s != ""
    case _ => true
  }

  /** A literal `true` flag: `typeof v === 'boolean' && v`. */
  predicate IsTrue(v: JsValue) { v == Bool(true) }
}

=== FILE: player.dfy ===
/**
 The z/t play loop of the viewer component: a play request starts, stops or
 restarts a periodic timer, and each timer tick steps the present plane or time
 point by one until a bound or a render error ends the loop.

 The timer is modelled as data: `live` is the set of timers the browser is
 still running, each carrying the values its closure captured when it was
 started. A tick is an explicit step taken by one live timer; the viewer's
 render status and the answer of `watchRenderStatus` are its inputs.
 */
module Player {
  import opened JsValues

  datatype Dim = Z | T

  /** A running `setInterval` loop: its handle id and what its closure captured. */
  datatype Interval = Interval(id: nat, dim: Dim, forwards: bool, maxIndex: int, delay: int)

  /** `player_info`: the loop that the component believes is playing. */
  datatype PlayerInfo = PlayerInfo(dim: Option<Dim>, forwards: Option<bool>, handle: Option<Interval>)

  const Idle := PlayerInfo(None, None, None)

  /** The image's present z and t indices and their counts (`dims.z`, `dims.max_z`, ...). */
  datatype Dimensions = Dimensions(z: int, t: int, maxZ: int, maxT: int)

  function Index(d: Dimensions, dim: Dim): int
  {
    if dim == Z then d.z else d.t
  }

  function Count(d: Dimensions, dim: Dim): int
  {
    if dim == Z then d.maxZ else d.maxT
  }

  function SetIndex(d: Dimensions, dim: Dim, v: int): (r: Dimensions)
    ensures Index(r, dim) == v
    ensures Index(r, if dim == Z then T else Z) == Index(d, if dim == Z then T else Z)
    ensures r.maxZ == d.maxZ && r.maxT == d.maxT
  {
    if dim == Z then d.(z := v) else d.(t := v)
  }

  /** The viewer's render status as a tick reads it. */
  datatype RenderStatus = InProgress | Rendered | Error

  /** Calls into the viewer that a transition makes. */
  datatype Command = ResetRenderStatus | WatchRenderStatus

  /** The component's play state together with the browser's running timers. */
  datatype PlayState = PlayState(info: PlayerInfo, live: set<Interval>, nextId: nat)

  /** The parameters of an `IMAGE_DIMENSION_PLAY` notification. */
  datatype PlayRequest = PlayRequest(configId: JsValue, dim: JsValue, forwards: JsValue, stop: JsValue, delay: JsValue)

  datatype PlayOutcome = PlayOutcome(state: PlayState, commands: seq<Command>)

  /** `player_info` holds all three fields or none. */
  predicate Consistent(info: PlayerInfo)
  {
    match info.handle
    case None => info.dim.None? && info.forwards.None?
    case Some(iv) => info.dim == Some(iv.dim) && info.forwards == Some(iv.forwards)
  }

  /** The handle held in `player_info`, as a set. */
  function Held(info: PlayerInfo): set<Interval>
  {
    if info.handle.Some? then {info.handle.value} else {}
  }

  /** The invariant of the play state: the held handle is a live timer, ids are fresh, delays sane. */
  predicate WellFormed(st: PlayState)
  {
    && Consistent(st.info)
    && Held(st.info) <= st.live
    && (forall iv :: iv in st.live ==> iv.id < st.nextId && iv.delay >= 100)
  }

  /** The intended invariant: the only running timer is the one `player_info` holds. */
  predicate SingleLoop(st: PlayState)
  {
    st.live == Held(st.info)
  }

  /** `dim` must be the string 'z' or 't'. */
  function ParseDim(v: JsValue): (r: Option<Dim>)
    ensures r == Some(Z) <==> v == Str("z")
    ensures r == Some(T) <==> v == Str("t")
  {
    if v == Str("z") then Some(Z) else if v == Str("t") then Some(T) else None
  }

  /** A request the handler acts on: it concerns this viewer and has a boolean direction and a known dim. */
  predicate Acceptable(viewerId: int, req: PlayRequest)
  {
    req.configId == Num(viewerId) && IsBoolean(req.forwards) && ParseDim(req.dim).Some?
  }

  /** The stop flag, defaulting to true when it is not a boolean. */
  function StopFlag(v: JsValue): (stop: bool)
    ensures !IsBoolean(v) ==> stop
    ensures IsBoolean(v) ==> stop == v.b
  {
    if v.Bool? then v.b else true
  }

  /** The tick delay of a new loop: the requested one if it is a number of at least 100 ms, else 250 ms. */
  function PlayDelay(v: JsValue): (d: int)
    ensures d >= 100
    ensures v.Num? && v.n >= 100 ==> d == v.n
    ensures !(v.Num? && v.n >= 100) ==> d == 250
  {
    if v.Num? && v.n >= 100 then v.n else 250
  }

  /** The stop function: clear the held timer, reset `player_info` and the render status. */
  function StopPlay(st: PlayState): (r: PlayState)
    ensures r.info == Idle
    ensures r.live == st.live - Held(st.info)
    ensures r.nextId == st.nextId
  {
    PlayState(Idle, st.live - Held(st.info), st.nextId)
  }

  /** Whether a loop can be started from the present index: it must have somewhere to go. */
  predicate CanAdvance(dims: Dimensions, dim: Dim, forwards: bool)
  {
    var maxIndex := Count(dims, dim) - 1;
    !(maxIndex == 0 || (forwards && Index(dims, dim) >= maxIndex) || (!forwards && Index(dims, dim) <= 0))
  }

  /** The start of a new loop after any stop: allocate a timer and record it in `player_info`. */
  function StartPlay(st: PlayState, dims: Dimensions, dim: Dim, forwards: bool, delay: int): PlayState
  {
    var iv := Interval(st.nextId, dim, forwards, Count(dims, dim) - 1, delay);
    PlayState(PlayerInfo(Some(dim), Some(forwards), Some(iv)), st.live + {iv}, st.nextId + 1)
  }

  /**
   `playDimension(params)` as written: a running loop is stopped first when
   the request says stop, or when it asks for another dim or direction.
   */
  function PlayDimension(st: PlayState, viewerId: int, dims: Dimensions, req: PlayRequest): (r: PlayOutcome)
    // requests the handler does not accept change nothing
    ensures !Acceptable(viewerId, req) ==> r == PlayOutcome(st, [])
    // a stop request ends the held loop, if any, and starts nothing
    ensures Acceptable(viewerId, req) && StopFlag(req.stop) ==>
              && r.state.live == st.live - Held(st.info)
              && r.state.nextId == st.nextId
              && (st.info.handle.Some? ==> r.state.info == Idle && r.commands == [ResetRenderStatus])
              && (st.info.handle.None? ==> r.state.info == st.info && r.commands == [])
    // a loop playing another dim or direction is stopped before anything else
    ensures Acceptable(viewerId, req) && st.info.handle.Some? &&
            (st.info.dim != ParseDim(req.dim) || st.info.forwards != Some(req.forwards.b)) ==>
              r.state.live == (st.live - Held(st.info)) + Held(r.state.info) && r.commands == [ResetRenderStatus]
    // but a loop playing the same dim and direction is left running
    ensures Acceptable(viewerId, req) && !StopFlag(req.stop) && st.info.handle.Some? &&
            st.info.dim == ParseDim(req.dim) && st.info.forwards == Some(req.forwards.b) ==>
              st.live <= r.state.live && r.commands == []
    // a new loop starts exactly when a play request finds somewhere to go
    ensures r.state.nextId == st.nextId + 1 <==>
              (Acceptable(viewerId, req) && !StopFlag(req.stop) &&
               CanAdvance(dims, ParseDim(req.dim).value, req.forwards.b))
    ensures r.state.nextId != st.nextId + 1 ==> r.state.nextId == st.nextId
    // a request that starts nothing either changes nothing or is exactly a stop
    ensures r.state.nextId == st.nextId ==>
              && (r.commands == [] ==> r.state == st)
              && (r.commands != [] ==> r.state == StopPlay(st))
    // with no loop held there is nothing to stop, so no stop call is made
    ensures st.info.handle.None? ==> r.commands == []
    // a start that stopped nothing adds the new timer to the running ones
    ensures r.state.nextId == st.nextId + 1 && r.commands == [] ==> r.state.live == st.live + Held(r.state.info)
    ensures r.state.nextId == st.nextId + 1 ==>
              var dim := ParseDim(req.dim).value;
              && r.state.info.handle == Some(Interval(st.nextId, dim, req.forwards.b, Count(dims, dim) - 1,
                                                      PlayDelay(req.delay)))
              && r.state.info.dim == Some(dim) && r.state.info.forwards == Some(req.forwards.b)
              && r.state.info.handle.value in r.state.live
  {
    if !Acceptable(viewerId, req) then PlayOutcome(st, [])
    else
      var dim := ParseDim(req.dim).value;
      var forwards := req.forwards.b;
      var stop := StopFlag(req.stop);
      var running := st.info.handle.Some?;
      var mustStop := (stop && running) ||
                      (!stop && running && (Some(dim) != st.info.dim || Some(forwards) != st.info.forwards));
      var st1 := if mustStop then StopPlay(st) else st;
      var commands := if mustStop then [ResetRenderStatus] else [];
      if stop then PlayOutcome(st1, commands)
      else if !CanAdvance(dims, dim, forwards) then PlayOutcome(st1, commands)
      else PlayOutcome(StartPlay(st1, dims, dim, forwards, PlayDelay(req.delay)), commands)
  }

  /**
   `playDimension(params)` as evidently intended: any running loop is stopped
   before a new one is started, so a restart in the same dim and direction does
   not leave the previous timer running.
   */
  function PlayDimensionFixed(st: PlayState, viewerId: int, dims: Dimensions, req: PlayRequest): (r: PlayOutcome)
    ensures !Acceptable(viewerId, req) ==> r == PlayOutcome(st, [])
    ensures Acceptable(viewerId, req) ==> r.state.live == (st.live - Held(st.info)) + Held(r.state.info)
    ensures Acceptable(viewerId, req) ==> r.commands == if st.info.handle.Some? then [ResetRenderStatus] else []
    ensures r.state.nextId == st.nextId + 1 <==>
              (Acceptable(viewerId, req) && !StopFlag(req.stop) &&
               CanAdvance(dims, ParseDim(req.dim).value, req.forwards.b))
    // a request that starts nothing stops the running loop, if any
    ensures Acceptable(viewerId, req) && r.state.nextId != st.nextId + 1 ==>
              && (st.info.handle.Some? ==> r.state == StopPlay(st))
              && (st.info.handle.None? ==> r.state == st)
    // a start holds the new loop, with the requested dim, direction, bound and delay
    ensures r.state.nextId == st.nextId + 1 ==>
              var dim := ParseDim(req.dim).value;
              && r.state.info == PlayerInfo(Some(dim), Some(req.forwards.b),
                                            Some(Interval(st.nextId, dim, req.forwards.b, Count(dims, dim) - 1,
                                                          PlayDelay(req.delay))))
  {
    if !Acceptable(viewerId, req) then PlayOutcome(st, [])
    else
      var dim := ParseDim(req.dim).value;
      var forwards := req.forwards.b;
      var stop := StopFlag(req.stop);
      var running := st.info.handle.Some?;
      var st1 := if running then StopPlay(st) else st;
      var commands := if running then [ResetRenderStatus] else [];
      if stop || !CanAdvance(dims, dim, forwards) then PlayOutcome(st1, commands)
      else
        PlayOutcome(StartPlay(st1, dims, dim, forwards, PlayDelay(req.delay)), commands)
  }

  datatype TickOutcome = TickOutcome(state: PlayState, dims: Dimensions, commands: seq<Command>)

  /**
   One firing of the live timer `iv`: `status` is the viewer's render status and
   `watched` the answer of `watchRenderStatus(true)`.
   */
  function Tick(st: PlayState, iv: Interval, dims: Dimensions, status: RenderStatus, watched: bool): (r: TickOutcome)
    requires iv in st.live
    // a render still in progress: wait for the next firing
    ensures status == InProgress ==> r == TickOutcome(st, dims, [])
    // a render error or a bound ends the held loop
    ensures status != InProgress &&
            (status == Error || (iv.forwards && Index(dims, iv.dim) >= iv.maxIndex) ||
             (!iv.forwards && Index(dims, iv.dim) <= 0)) ==>
              r == TickOutcome(StopPlay(st), dims, [ResetRenderStatus])
    // otherwise the index moves by exactly one in the loop's direction, and nothing else changes
    ensures status == Rendered && !((iv.forwards && Index(dims, iv.dim) >= iv.maxIndex) ||
                                    (!iv.forwards && Index(dims, iv.dim) <= 0)) ==>
              && r.state == st
              && Index(r.dims, iv.dim) == Index(dims, iv.dim) + (if iv.forwards then 1 else -1)
              && (iv.forwards ==> Index(r.dims, iv.dim) <= iv.maxIndex)
              && (!iv.forwards ==> Index(r.dims, iv.dim) >= 0)
              && r.commands == [WatchRenderStatus] + (if watched then [] else [ResetRenderStatus])
    ensures r.dims.maxZ == dims.maxZ && r.dims.maxT == dims.maxT
    ensures Index(r.dims, if iv.dim == Z then T else Z) == Index(dims, if iv.dim == Z then T else Z)
  {
    if status == InProgress then TickOutcome(st, dims, [])
    else
      var pres := Index(dims, iv.dim);
      if status == Error || (iv.forwards && pres >= iv.maxIndex) || (!iv.forwards && pres <= 0) then
        TickOutcome(StopPlay(st), dims, [ResetRenderStatus])
      else
        TickOutcome(st, SetIndex(dims, iv.dim, pres + (if iv.forwards then 1 else -1)),
                    [WatchRenderStatus] + (if watched then [] else [ResetRenderStatus]))
  }

  /** A tick keeps the played index within [0, max - 1] once it is there. */
  lemma TickStaysInBounds(st: PlayState, iv: Interval, dims: Dimensions, status: RenderStatus, watched: bool)
    requires iv in st.live
    requires 0 <= Index(dims, iv.dim) <= iv.maxIndex
    ensures var r := Tick(st, iv, dims, status, watched);
            0 <= Index(r.dims, iv.dim) <= iv.maxIndex
  {
  }

  /**
   `n` rendered firings of the timer `iv`, for as long as it is live; the
   second component is the image's dimensions after them.
   */
  function RunTicks(st: PlayState, iv: Interval, dims: Dimensions, n: nat, watched: bool): (PlayState, Dimensions)
    decreases n
  {
    if n == 0 || iv !in st.live then (st, dims)
    else
      var r := Tick(st, iv, dims, Rendered, watched);
      RunTicks(r.state, iv, r.dims, n - 1, watched)
  }

  /**
   A loop that renders without error plays to its bound and then stops itself:
   after one tick per remaining index plus the stopping tick the index sits at
   the last (or first) index, the timer is cleared and `player_info` is idle.
   */
  lemma {:induction false} PlayRunsToBoundThenStops(st: PlayState, dims: Dimensions, watched: bool)
    requires WellFormed(st) && st.info.handle.Some?
    requires var iv := st.info.handle.value; 0 <= Index(dims, iv.dim) <= iv.maxIndex
    ensures var iv := st.info.handle.value;
            var n := if iv.forwards then iv.maxIndex - Index(dims, iv.dim) + 1 else Index(dims, iv.dim) + 1;
            var (st', dims') := RunTicks(st, iv, dims, n, watched);
            && st' == StopPlay(st)
            && iv !in st'.live
            && Index(dims', iv.dim) == (if iv.forwards then iv.maxIndex else 0)
            && Index(dims', if iv.dim == Z then T else Z) == Index(dims, if iv.dim == Z then T else Z)
    decreases if st.info.handle.value.forwards then st.info.handle.value.maxIndex - Index(dims, st.info.handle.value.dim)
              else Index(dims, st.info.handle.value.dim)
  {
    var iv := st.info.handle.value;
    var i := Index(dims, iv.dim);
    var r := Tick(st, iv, dims, Rendered, watched);
    if (iv.forwards && i >= iv.maxIndex) || (!iv.forwards && i <= 0) {
      assert r.state == StopPlay(st);
      assert RunTicks(r.state, iv, r.dims, 0, watched) == (r.state, dims);
    } else {
      assert r.state == st && r.dims != dims;
      PlayRunsToBoundThenStops(st, r.dims, watched);
    }
  }

  /** A play request that omits the stop flag is a stop request. */
  lemma StopDefaultsToTrue(st: PlayState, viewerId: int, dims: Dimensions, req: PlayRequest)
    requires !IsBoolean(req.stop)
    ensures PlayDimension(st, viewerId, dims, req) == PlayDimension(st, viewerId, dims, req.(stop := Bool(true)))
    ensures PlayDimension(st, viewerId, dims, req).state.nextId == st.nextId
  {
  }

  /** Every play request preserves the well-formedness of the play state. */
  lemma PlayDimensionWellFormed(st: PlayState, viewerId: int, dims: Dimensions, req: PlayRequest)
    requires WellFormed(st)
    ensures WellFormed(PlayDimension(st, viewerId, dims, req).state)
  {
  }

  /** So does every tick. */
  lemma TickWellFormed(st: PlayState, iv: Interval, dims: Dimensions, status: RenderStatus, watched: bool)
    requires WellFormed(st) && iv in st.live
    ensures WellFormed(Tick(st, iv, dims, status, watched).state)
  {
  }

  /** A stop request from a well-formed state leaves `player_info` idle. */
  lemma StopLeavesIdle(st: PlayState, viewerId: int, dims: Dimensions, req: PlayRequest)
    requires WellFormed(st) && Acceptable(viewerId, req) && StopFlag(req.stop)
    ensures PlayDimension(st, viewerId, dims, req).state.info == Idle
    ensures PlayDimension(st, viewerId, dims, req).state.live == st.live - Held(st.info)
  {
  }

  // ---------------------------------------------------------------------------
  // The orphaned timer
  // ---------------------------------------------------------------------------

  /**
   Only the held timer is ever cleared: a timer that `player_info` no longer
   holds survives every play request and every tick.
   */
  lemma OrphanSurvivesRequests(st: PlayState, viewerId: int, dims: Dimensions, req: PlayRequest, orphan: Interval)
    requires orphan in st.live && Some(orphan) != st.info.handle
    ensures orphan in PlayDimension(st, viewerId, dims, req).state.live
    ensures Some(orphan) != PlayDimension(st, viewerId, dims, req).state.info.handle
            || PlayDimension(st, viewerId, dims, req).state.nextId == st.nextId + 1
  {
  }

  lemma OrphanSurvivesTicks(st: PlayState, iv: Interval, dims: Dimensions, status: RenderStatus, watched: bool,
                            orphan: Interval)
    requires iv in st.live && orphan in st.live && Some(orphan) != st.info.handle
    ensures orphan in Tick(st, iv, dims, status, watched).state.live
    ensures Some(orphan) != Tick(st, iv, dims, status, watched).state.info.handle
  {
  }

  /**
   Two identical play requests in a row: the second starts a second timer and
   drops the handle of the first without clearing it, so the first keeps
   firing and no later request can clear it.
   */
  lemma SameDirectionRestartOrphansTimer()
    ensures var st0 := PlayState(Idle, {}, 0);
            var dims := Dimensions(0, 0, 5, 1);
            var req := PlayRequest(Num(1), Str("z"), Bool(true), Bool(false), Undefined);
            var st1 := PlayDimension(st0, 1, dims, req).state;
            var st2 := PlayDimension(st1, 1, dims, req).state;
            && SingleLoop(st1)
            && !SingleLoop(st2)
            && st1.info.handle.value in st2.live
            && Some(st1.info.handle.value) != st2.info.handle
  {
  }

  /** With the fix, a play request keeps the single-timer invariant. */
  lemma PlayDimensionFixedKeepsSingleLoop(st: PlayState, viewerId: int, dims: Dimensions,
                                          req: PlayRequest)
    requires WellFormed(st) && SingleLoop(st)
    ensures var r := PlayDimensionFixed(st, viewerId, dims, req).state;
            WellFormed(r) && SingleLoop(r)
  {
  }

  /** With the single-timer invariant a tick is always the held loop's own, and keeps the invariant. */
  lemma TickKeepsSingleLoop(st: PlayState, iv: Interval, dims: Dimensions, status: RenderStatus, watched: bool)
    requires WellFormed(st) && SingleLoop(st) && iv in st.live
    ensures st.info.handle == Some(iv)
    ensures var r := Tick(st, iv, dims, status, watched).state;
            WellFormed(r) && SingleLoop(r)
  {
  }

  /** With the fix, restarting in the same dim and direction replaces the timer instead of adding one. */
  lemma FixedRestartReplacesTimer()
    ensures var st0 := PlayState(Idle, {}, 0);
            var dims := Dimensions(0, 0, 5, 1);
            var req := PlayRequest(Num(1), Str("z"), Bool(true), Bool(false), Undefined);
            var st1 := PlayDimensionFixed(st0, 1, dims, req).state;
            var st2 := PlayDimensionFixed(st1, 1, dims, req).state;
            SingleLoop(st2) && |st2.live| == 1
  {
  }
}

=== FILE: regions.dfy ===
/**
 The reconciliation of the regions map after the server has stored shapes
 (`afterShapeStorage`). The server answers with a map from each stored shape's
 client id to its id after storage; the component then clears the modified
 flags, moves new shapes under their new ROI and shape ids, drops deleted
 shapes and ROIs left empty, corrects the shape counters, and prunes or resets
 the regions history.

 Shape ids (`'roi_id:shape_id'`) are represented already split into their ROI
 and shape parts, so `extractRoiAndShapeId` is the identity here; a shape is
 looked up as the entry of its ROI's shape map.
 */
module Regions {
  import opened JsValues

  /** A composite shape id: the ROI id and the shape id within it. */
  datatype ShapeRef = ShapeRef(roi: int, shape: int)

  /** A shape entry of the regions map, with the flags this handler reads or writes. */
  datatype Shape = Shape(shapeId: ShapeRef, atId: int, modified: bool, isNew: bool, deleted: bool, visible: bool)

  /** A ROI entry: its shapes by shape id, and two display fields. */
  datatype Roi = Roi(shapes: map<int, Shape>, show: bool, deleted: int)

  const EmptyRoi := Roi(map[], false, 0)

  /** The part of `regions_info` this handler touches. */
  datatype RegionsInfo = RegionsInfo(data: map<int, Roi>, numberOfShapes: int, visibilityToggles: int)

  /** `regions_info.getShape(id)`. */
  function GetShape(data: map<int, Roi>, id: ShapeRef): Option<Shape>
  {
    if id.roi in data && id.shape in data[id.roi].shapes then Some(data[id.roi].shapes[id.shape]) else None
  }

  /** Stores `s` under `id`, creating no ROI. */
  function PutShape(data: map<int, Roi>, id: ShapeRef, s: Shape): (r: map<int, Roi>)
    requires id.roi in data
    ensures GetShape(r, id) == Some(s)
    ensures r.Keys == data.Keys
    ensures forall other :: other != id ==> GetShape(r, other) == GetShape(data, other)
  {
    data[id.roi := data[id.roi].(shapes := data[id.roi].shapes[id.shape := s])]
  }

  /** Stores `s` under `id`, creating its ROI (empty, not shown) when there is none. */
  function InsertShape(data: map<int, Roi>, id: ShapeRef, s: Shape): (r: map<int, Roi>)
    ensures GetShape(r, id) == Some(s)
    ensures r.Keys == data.Keys + {id.roi}
    ensures forall other :: other != id ==> GetShape(r, other) == GetShape(data, other)
  {
    var roi := if id.roi in data then data[id.roi] else EmptyRoi;
    data[id.roi := roi.(shapes := roi.shapes[id.shape := s])]
  }

  /** Removes the entry `id`, and its ROI as well when no shape is left in it. */
  function RemoveShape(data: map<int, Roi>, id: ShapeRef): (r: map<int, Roi>)
    requires id.roi in data
    ensures GetShape(r, id) == None
    ensures id.roi in r ==> |r[id.roi].shapes| > 0
    ensures id.roi !in r <==> data[id.roi].shapes.Keys <= {id.shape}
    ensures r.Keys <= data.Keys && r.Keys + {id.roi} == data.Keys + {id.roi}
    ensures forall other :: other != id ==> GetShape(r, other) == GetShape(data, other)
  {
    var roi := data[id.roi];
    if exists left :: left in roi.shapes && left != id.shape then
      var shapes := roi.shapes - {id.shape};
      var left :| left in roi.shapes && left != id.shape;
      assert left in shapes.Keys;
      data[id.roi := roi.(shapes := shapes)]
    else
      data - {id.roi}
  }

  /** The entry under `id` is gone or no longer modified. */
  predicate Cleared(data: map<int, Roi>, id: ShapeRef)
  {
    GetShape(data, id).None? || !GetShape(data, id).value.modified
  }

  /** The entry a new shape is re-inserted as: no longer new, under its stored id. */
  function Rekeyed(s: Shape, syncId: ShapeRef): Shape
  {
    s.(modified := false, isNew := false, shapeId := syncId, atId := syncId.shape)
  }

  /**
   One iteration of the loop over the stored ids: `id` is the shape's id before
   storage, `syncId` its id after. Returns the new state and whether the id was
   acknowledged (its shape found).
   */
  function SyncShape(info: RegionsInfo, id: ShapeRef, syncId: ShapeRef): (r: (RegionsInfo, bool))
    // an unknown id is skipped
    ensures GetShape(info.data, id).None? ==> r == (info, false)
    ensures GetShape(info.data, id).Some? ==> r.1
    // entries other than the old id are untouched, and so is the new id unless a new shape moves there
    ensures forall other :: other != id &&
                            (other != syncId || GetShape(info.data, id).None? || !GetShape(info.data, id).value.isNew) ==>
              GetShape(r.0.data, other) == GetShape(info.data, other)
    // an existing shape is kept, no longer modified, unless it was deleted
    ensures GetShape(info.data, id).Some? && !GetShape(info.data, id).value.isNew
            && !GetShape(info.data, id).value.deleted ==>
              && GetShape(r.0.data, id) == Some(GetShape(info.data, id).value.(modified := false))
              && r.0.data.Keys == info.data.Keys
              && r.0.numberOfShapes == info.numberOfShapes
              && r.0.visibilityToggles == info.visibilityToggles
    // a deleted shape goes, with its ROI if that is left empty, and leaves the count
    ensures GetShape(info.data, id).Some? && !GetShape(info.data, id).value.isNew
            && GetShape(info.data, id).value.deleted ==>
              && GetShape(r.0.data, id) == None
              && (id.roi in r.0.data ==> |r.0.data[id.roi].shapes| > 0)
              && r.0.numberOfShapes == info.numberOfShapes - 1
              && r.0.visibilityToggles ==
                 info.visibilityToggles + (if GetShape(info.data, id).value.visible then 0 else 1)
    // the only ROI changes: an emptied old ROI goes, and a moved new shape's ROI may appear
    ensures GetShape(info.data, id).Some? && !GetShape(info.data, id).value.isNew
            && GetShape(info.data, id).value.deleted ==>
              r.0.data.Keys <= info.data.Keys && info.data.Keys - {id.roi} <= r.0.data.Keys
    ensures GetShape(info.data, id).Some? && GetShape(info.data, id).value.isNew ==>
              && r.0.data.Keys <= info.data.Keys + {syncId.roi}
              && (info.data.Keys + {syncId.roi}) - {id.roi} <= r.0.data.Keys
    // a new shape moves to its stored id; the counters stay
    ensures GetShape(info.data, id).Some? && GetShape(info.data, id).value.isNew && syncId != id ==>
              && GetShape(r.0.data, syncId) == Some(Rekeyed(GetShape(info.data, id).value, syncId))
              && GetShape(r.0.data, id) == None
              && (id.roi in r.0.data ==> |r.0.data[id.roi].shapes| > 0)
              && syncId.roi in r.0.data
              && r.0.numberOfShapes == info.numberOfShapes
              && r.0.visibilityToggles == info.visibilityToggles
  {
    match GetShape(info.data, id)
    case None => (info, false)
    case Some(found) =>
      var shape := found.(modified := false);
      var wasNew := shape.isNew;
      var data1 := PutShape(info.data, id, shape);
      if wasNew then
        var data2 := InsertShape(data1, syncId, Rekeyed(shape, syncId));
        // the old entry was flagged deleted, so it is removed, but not counted
        (info.(data := RemoveShape(data2, id)), true)
      else if shape.deleted then
        (RegionsInfo(RemoveShape(data1, id), info.numberOfShapes - 1,
                     info.visibilityToggles + (if shape.visible then 0 else 1)), true)
      else
        (info.(data := data1), true)
  }

  /** A step keeps every ROI's display fields, and a ROI it creates for a new shape starts empty. */
  lemma SyncShapeKeepsRois(info: RegionsInfo, id: ShapeRef, syncId: ShapeRef)
    ensures RoisKept(info.data, SyncShape(info, id, syncId).0.data)
  {
    match GetShape(info.data, id)
    case None =>
    case Some(found) =>
      var data1 := PutShape(info.data, id, found.(modified := false));
      PutShapeKeepsRois(info.data, id, found.(modified := false));
      if found.isNew {
        var data2 := InsertShape(data1, syncId, Rekeyed(found.(modified := false), syncId));
        InsertShapeKeepsRois(data1, syncId, Rekeyed(found.(modified := false), syncId));
        RoisKeptTrans(info.data, data1, data2);
        RemoveShapeKeepsRois(data2, id);
        RoisKeptTrans(info.data, data2, RemoveShape(data2, id));
      } else if found.deleted {
        RemoveShapeKeepsRois(data1, id);
        RoisKeptTrans(info.data, data1, RemoveShape(data1, id));
      }
  }

  /**
   From `before` to `after` every ROI kept its display fields (`show`,
   `deleted`), and every ROI added starts empty and hidden.
   */
  predicate RoisKept(before: map<int, Roi>, after: map<int, Roi>)
  {
    && (forall k :: k in after && k in before ==>
          after[k].show == before[k].show && after[k].deleted == before[k].deleted)
    && (forall k :: k in after && k !in before ==> after[k].(shapes := map[]) == EmptyRoi)
  }

  lemma RoisKeptTrans(a: map<int, Roi>, b: map<int, Roi>, c: map<int, Roi>)
    requires RoisKept(a, b) && RoisKept(b, c)
    requires a.Keys <= b.Keys || c.Keys <= b.Keys
    ensures RoisKept(a, c)
  {
  }

  lemma PutShapeKeepsRois(data: map<int, Roi>, id: ShapeRef, s: Shape)
    requires id.roi in data
    ensures RoisKept(data, PutShape(data, id, s))
  {
  }

  lemma InsertShapeKeepsRois(data: map<int, Roi>, id: ShapeRef, s: Shape)
    ensures RoisKept(data, InsertShape(data, id, s))
  {
  }

  lemma RemoveShapeKeepsRois(data: map<int, Roi>, id: ShapeRef)
    requires id.roi in data
    ensures RoisKept(data, RemoveShape(data, id))
  {
  }

  /** One pair of the server's answer: a shape's id before storage and after. */
  datatype SyncPair = SyncPair(id: ShapeRef, syncId: ShapeRef)

  /** The loop over the server's answer, in order; returns the state and the acknowledged ids. */
  function SyncAll(info: RegionsInfo, pairs: seq<SyncPair>): (r: (RegionsInfo, seq<ShapeRef>))
    ensures |r.1| <= |pairs|
    ensures forall x :: x in r.1 ==> exists p :: p in pairs && p.id == x
    ensures info.numberOfShapes - |pairs| <= r.0.numberOfShapes <= info.numberOfShapes
    ensures r.0.visibilityToggles >= info.visibilityToggles
    ensures r.0.visibilityToggles - info.visibilityToggles <= info.numberOfShapes - r.0.numberOfShapes
    decreases |pairs|
  {
    if |pairs| == 0 then (info, [])
    else
      var (next, acknowledged) := SyncShape(info, pairs[0].id, pairs[0].syncId);
      var (last, ids) := SyncAll(next, pairs[1..]);
      assert forall x :: x in ids ==> exists p :: p in pairs && p.id == x by {
        forall x | x in ids ensures exists p :: p in pairs && p.id == x {
          var p :| p in pairs[1..] && p.id == x;
          assert p in pairs;
        }
      }
      (last, (if acknowledged then [pairs[0].id] else []) + ids)
  }

  /** One step leaves the acknowledged id unmodified or gone, and writes only unmodified entries. */
  lemma SyncShapeClears(info: RegionsInfo, id: ShapeRef, syncId: ShapeRef, x: ShapeRef)
    ensures var r := SyncShape(info, id, syncId);
            && (r.1 ==> Cleared(r.0.data, id))
            && (GetShape(r.0.data, x) == GetShape(info.data, x) || Cleared(r.0.data, x))
  {
    var r := SyncShape(info, id, syncId);
    if GetShape(info.data, id).Some? && GetShape(info.data, id).value.isNew && syncId == id {
      var found := GetShape(info.data, id).value;
      var data1 := PutShape(info.data, id, found.(modified := false));
      var data2 := InsertShape(data1, syncId, Rekeyed(found.(modified := false), syncId));
      assert r.0.data == RemoveShape(data2, id);
    }
  }

  /** An entry that is gone or unmodified stays so for the rest of the loop. */
  lemma {:induction false} SyncAllKeepsCleared(info: RegionsInfo, pairs: seq<SyncPair>, x: ShapeRef)
    requires Cleared(info.data, x)
    ensures Cleared(SyncAll(info, pairs).0.data, x)
    decreases |pairs|
  {
    if |pairs| > 0 {
      var next := SyncShape(info, pairs[0].id, pairs[0].syncId).0;
      SyncShapeClears(info, pairs[0].id, pairs[0].syncId, x);
      SyncAllKeepsCleared(next, pairs[1..], x);
    }
  }

  /**
   Whatever mix of new, deleted and modified shapes the answer acknowledges,
   every acknowledged id ends with no entry or with its modified flag cleared.
   */
  lemma {:induction false} SyncAllClearsAcknowledged(info: RegionsInfo, pairs: seq<SyncPair>)
    ensures forall x :: x in SyncAll(info, pairs).1 ==> Cleared(SyncAll(info, pairs).0.data, x)
    decreases |pairs|
  {
    if |pairs| > 0 {
      var step := SyncShape(info, pairs[0].id, pairs[0].syncId);
      var tail := SyncAll(step.0, pairs[1..]);
      SyncAllClearsAcknowledged(step.0, pairs[1..]);
      assert SyncAll(info, pairs) == (tail.0, (if step.1 then [pairs[0].id] else []) + tail.1);
      if step.1 {
        SyncShapeClears(info, pairs[0].id, pairs[0].syncId, pairs[0].id);
        SyncAllKeepsCleared(step.0, pairs[1..], pairs[0].id);
      }
    }
  }

  /** What happens to the regions history afterwards. */
  datatype HistoryAction = RemoveEntries(ids: seq<ShapeRef>) | ResetHistory

  /** Calls on the modal message box. */
  datatype ModalCall = HideModal | ShowError(message: string)

  /** `indexOf(sub) !== -1` */
  predicate Contains(s: string, sub: string)
    decreases |s|
  {
    |sub| <= |s| && (s[..|sub|] == sub || Contains(s[1..], sub))
  }

  /** `sub` occurs in `s` at position `i`. */
  predicate OccursAt(s: string, sub: string, i: int)
  {
    0 <= i <= |s| - |sub| && s[i..i + |sub|] == sub
  }

  /** `Contains` finds `sub` exactly when it occurs at some position of `s`. */
  lemma {:induction false} ContainsOccurs(s: string, sub: string)
    ensures Contains(s, sub) <==> exists i :: OccursAt(s, sub, i)
    decreases |s|
  {
    if |sub| > |s| {
    } else if s[..|sub|] == sub {
      assert OccursAt(s, sub, 0);
    } else {
      ContainsOccurs(s[1..], sub);
      forall i | OccursAt(s, sub, i)
        ensures OccursAt(s[1..], sub, i - 1)
      {
        assert i != 0;
        assert s[1..][i - 1..i - 1 + |sub|] == s[i..i + |sub|];
      }
      forall i | OccursAt(s[1..], sub, i)
        ensures OccursAt(s, sub, i + 1)
      {
        assert s[1..][i..i + |sub|] == s[i + 1..i + 1 + |sub|];
      }
    }
  }

  /** The message shown when the server reports an error. */
  function ErrorMessage(error: string): string
  {
    if Contains(error, "SecurityViolation") then "Insufficient Permissions to save some Rois/Shapes."
    else "Saving of Rois/Shapes failed."
  }

  /**
   The parameters of a `REGIONS_STORED_SHAPES` notification; `shapes` is `None`
   when it is not a non-null object.
   */
  datatype StoredParams = StoredParams(configId: JsValue, shapes: Option<seq<SyncPair>>,
                                       omitClientUpdate: JsValue, isDelete: JsValue, error: JsValue)

  datatype StorageOutcome = StorageOutcome(info: RegionsInfo, history: Option<HistoryAction>, modal: seq<ModalCall>)

  /** `afterShapeStorage(params)`. */
  method AfterShapeStorage(info: RegionsInfo, viewerId: int, p: StoredParams) returns (r: StorageOutcome)
    // the modal message is always hidden first
    ensures |r.modal| >= 1 && r.modal[0] == HideModal
    // notifications that do not concern this viewer, carry no shapes or ask to omit the update change nothing
    ensures p.configId != Num(viewerId) || p.shapes.None? || Truthy(p.omitClientUpdate) ==>
              r == StorageOutcome(info, None, [HideModal])
    ensures p.configId == Num(viewerId) && p.shapes.Some? && !Truthy(p.omitClientUpdate) ==>
              // the regions map is reconciled pair by pair, in the order of the answer
              && r.info == SyncAll(info, p.shapes.value).0
              // the history is pruned to the acknowledged ids on a delete, reset otherwise
              && r.history == Some(if Truthy(p.isDelete) then RemoveEntries(SyncAll(info, p.shapes.value).1)
                                   else ResetHistory)
              && (p.error.Str? ==> r.modal == [HideModal, ShowError(ErrorMessage(p.error.s))])
              && (!p.error.Str? ==> r.modal == [HideModal])
  {
    if p.configId != Num(viewerId) || p.shapes.None? || Truthy(p.omitClientUpdate) {
      return StorageOutcome(info, None, [HideModal]);
    }
    var pairs := p.shapes.value;
    var cur := info;
    var ids: seq<ShapeRef> := [];
    var k := 0;
    assert pairs[k..] == pairs;
    while k < |pairs|
      invariant 0 <= k <= |pairs|
      invariant SyncAll(cur, pairs[k..]).0 == SyncAll(info, pairs).0
      invariant ids + SyncAll(cur, pairs[k..]).1 == SyncAll(info, pairs).1
    {
      var rest := pairs[k..];
      assert rest[0] == pairs[k];
      assert rest[1..] == pairs[k + 1..];
      var step := SyncShape(cur, pairs[k].id, pairs[k].syncId);
      var tail := SyncAll(step.0, pairs[k + 1..]);
      assert SyncAll(cur, rest) == (tail.0, (if step.1 then [pairs[k].id] else []) + tail.1);
      if step.1 {
        ids := ids + [pairs[k].id];
      }
      cur := step.0;
      k := k + 1;
    }
    assert pairs[k..] == [];
    assert ids + [] == ids;
    assert ids == SyncAll(info, pairs).1;
    var history := if Truthy(p.isDelete) then RemoveEntries(ids) else ResetHistory;
    var modal := if p.error.Str? then [HideModal, ShowError(ErrorMessage(p.error.s))] else [HideModal];
    r := StorageOutcome(cur, Some(history), modal);
  }

  /** The permission message is chosen exactly for errors that mention a security violation. */
  lemma ErrorMessageChoice(error: string)
    ensures ErrorMessage(error) == "Insufficient Permissions to save some Rois/Shapes." <==>
            exists i :: OccursAt(error, "SecurityViolation", i)
  {
    ContainsOccurs(error, "SecurityViolation");
  }

  /**
   Storing a brand-new shape: it reappears under its stored id, no longer new or
   modified, its temporary entry is gone, and the shape count is unchanged.
   */
  lemma NewShapeRekeyed(info: RegionsInfo, id: ShapeRef, syncId: ShapeRef)
    requires GetShape(info.data, id).Some? && GetShape(info.data, id).value.isNew
    requires id != syncId
    ensures var r := SyncAll(info, [SyncPair(id, syncId)]);
            && r.1 == [id]
            && GetShape(r.0.data, syncId).Some?
            && !GetShape(r.0.data, syncId).value.isNew
            && !GetShape(r.0.data, syncId).value.modified
            && GetShape(r.0.data, syncId).value.shapeId == syncId
            && GetShape(r.0.data, id).None?
            && r.0.numberOfShapes == info.numberOfShapes
  {
  }

  /** The client ids of the server's answer, in order. */
  function Ids(pairs: seq<SyncPair>): (ids: seq<ShapeRef>)
    ensures |ids| == |pairs| && forall i :: 0 <= i < |pairs| ==> ids[i] == pairs[i].id
  {
    seq(|pairs|, i requires 0 <= i < |pairs| => pairs[i].id)
  }

  /** Every id of the answer names a known shape that is neither new nor deleted. */
  predicate OnlyModified(data: map<int, Roi>, pairs: seq<SyncPair>)
  {
    forall p :: p in pairs ==>
      GetShape(data, p.id).Some? && !GetShape(data, p.id).value.isNew && !GetShape(data, p.id).value.deleted
  }

  /** One step for a shape that is neither new nor deleted: only its modified flag is cleared. */
  lemma KeptStep(info: RegionsInfo, id: ShapeRef, syncId: ShapeRef)
    requires GetShape(info.data, id).Some? && !GetShape(info.data, id).value.isNew
    requires !GetShape(info.data, id).value.deleted
    ensures var r := SyncShape(info, id, syncId);
            && r.1
            && r.0.data.Keys == info.data.Keys
            && r.0.numberOfShapes == info.numberOfShapes
            && r.0.visibilityToggles == info.visibilityToggles
            && forall x :: GetShape(r.0.data, x) ==
                 if x == id then Some(GetShape(info.data, id).value.(modified := false)) else GetShape(info.data, x)
  {
  }

  /** After a kept step the rest of the answer still names only modified shapes. */
  lemma KeptStepKeepsOnlyModified(info: RegionsInfo, pairs: seq<SyncPair>)
    requires |pairs| > 0 && OnlyModified(info.data, pairs)
    ensures OnlyModified(SyncShape(info, pairs[0].id, pairs[0].syncId).0.data, pairs[1..])
  {
    var next := SyncShape(info, pairs[0].id, pairs[0].syncId).0;
    KeptStep(info, pairs[0].id, pairs[0].syncId);
    forall p | p in pairs[1..]
      ensures GetShape(next.data, p.id).Some? && !GetShape(next.data, p.id).value.isNew
              && !GetShape(next.data, p.id).value.deleted
    {
      assert p in pairs;
    }
  }

  /**
   Storing shapes that were only modified: every id is acknowledged, every
   shape stays where it was with its modified flag cleared, and neither the
   ROIs nor the counters change.
   */
  lemma ModifiedOnlySave(info: RegionsInfo, pairs: seq<SyncPair>)
    requires OnlyModified(info.data, pairs)
    ensures SyncAll(info, pairs).1 == Ids(pairs)
    ensures SyncAll(info, pairs).0.data.Keys == info.data.Keys
    ensures SyncAll(info, pairs).0.numberOfShapes == info.numberOfShapes
    ensures SyncAll(info, pairs).0.visibilityToggles == info.visibilityToggles
    ensures forall p :: p in pairs ==>
              GetShape(SyncAll(info, pairs).0.data, p.id) == Some(GetShape(info.data, p.id).value.(modified := false))
  {
    ModifiedOnlySaveTotals(info, pairs);
    forall p | p in pairs
      ensures GetShape(SyncAll(info, pairs).0.data, p.id) == Some(GetShape(info.data, p.id).value.(modified := false))
    {
      ModifiedOnlySaveAt(info, pairs, p.id);
    }
  }

  /** Under a save of modified shapes only, every id is acknowledged and the ROIs and counters stay. */
  lemma {:induction false} ModifiedOnlySaveTotals(info: RegionsInfo, pairs: seq<SyncPair>)
    requires OnlyModified(info.data, pairs)
    ensures SyncAll(info, pairs).1 == Ids(pairs)
    ensures SyncAll(info, pairs).0.data.Keys == info.data.Keys
    ensures SyncAll(info, pairs).0.numberOfShapes == info.numberOfShapes
    ensures SyncAll(info, pairs).0.visibilityToggles == info.visibilityToggles
    decreases |pairs|
  {
    if |pairs| > 0 {
      var next := SyncShape(info, pairs[0].id, pairs[0].syncId).0;
      KeptStep(info, pairs[0].id, pairs[0].syncId);
      KeptStepKeepsOnlyModified(info, pairs);
      ModifiedOnlySaveTotals(next, pairs[1..]);
      var tail := SyncAll(next, pairs[1..]);
      assert SyncAll(info, pairs) == (tail.0, [pairs[0].id] + tail.1);
      assert Ids(pairs) == [pairs[0].id] + Ids(pairs[1..]);
    }
  }

  /** Under a save of modified shapes only, a named shape ends with its modified flag cleared. */
  lemma {:induction false} ModifiedOnlySaveAt(info: RegionsInfo, pairs: seq<SyncPair>, x: ShapeRef)
    requires OnlyModified(info.data, pairs)
    requires exists p :: p in pairs && p.id == x
    ensures GetShape(SyncAll(info, pairs).0.data, x) == Some(GetShape(info.data, x).value.(modified := false))
    decreases |pairs|
  {
    var p :| p in pairs && p.id == x;
    assert GetShape(info.data, x).Some?;
    var next := SyncShape(info, pairs[0].id, pairs[0].syncId).0;
    KeptStep(info, pairs[0].id, pairs[0].syncId);
    KeptStepKeepsOnlyModified(info, pairs);
    assert p == pairs[0] || p in pairs[1..];
    if exists q :: q in pairs[1..] && q.id == x {
      ModifiedOnlySaveAt(next, pairs[1..], x);
    } else {
      assert forall q :: q in pairs[1..] ==> q.id != x;
      ModifiedOnlySaveFrame(next, pairs[1..], x);
    }
  }

  /** Under a save of modified shapes only, ids not in the answer are left alone. */
  lemma {:induction false} ModifiedOnlySaveFrame(info: RegionsInfo, pairs: seq<SyncPair>, x: ShapeRef)
    requires OnlyModified(info.data, pairs)
    requires forall q :: q in pairs ==> q.id != x
    ensures GetShape(SyncAll(info, pairs).0.data, x) == GetShape(info.data, x)
    decreases |pairs|
  {
    if |pairs| > 0 {
      var next := SyncShape(info, pairs[0].id, pairs[0].syncId).0;
      KeptStep(info, pairs[0].id, pairs[0].syncId);
      KeptStepKeepsOnlyModified(info, pairs);
      assert pairs[0] in pairs;
      assert forall q :: q in pairs[1..] ==> q in pairs;
      ModifiedOnlySaveFrame(next, pairs[1..], x);
    }
  }
}

=== FILE: viewer_events.dfy ===
/**
 Event rules of the viewer component that decide, from a notification's
 parameters and the component's state, which call (if any) it makes on the
 embedded viewer: the drawing-mode mapping of `drawShape`, the plane/time
 switch and delay of `changeShapeSelection`, and the parameter validation of
 `getRegionsPropertyChange` and `changeImageSettings`.

 The embedded viewer is not modelled; its calls are returned as data.
 */
module ViewerEvents {
  import opened JsValues
  import Player

  type Dim = Player.Dim

  // ---------------------------------------------------------------------------
  // drawShape
  // ---------------------------------------------------------------------------

  /** The regions drawing modes; `Other` stands for any other value of the mode. */
  datatype DrawingMode =
    | NeitherZNorT | NotZ | NotT
    | AllZAndT | AllZ | AllT | CustomZAndT
    | Other

  /** The options a drawing is started with: the dims the shape is not attached to, and whether it is added. */
  datatype DrawOptions = DrawOptions(unattached: seq<Dim>, add: bool)

  /** Drawing modes that propagate the drawn shape over several planes instead of adding it directly. */
  predicate Propagates(mode: DrawingMode)
  {
    mode == AllZAndT || mode == AllZ || mode == AllT || mode == CustomZAndT
  }

  /** The switch over the drawing mode in `drawShape`. */
  function DrawingOptions(mode: DrawingMode): (o: DrawOptions)
    ensures mode == NeitherZNorT ==> o == DrawOptions([Player.Z, Player.T], true)
    ensures mode == NotZ ==> o == DrawOptions([Player.Z], true)
    ensures mode == NotT ==> o == DrawOptions([Player.T], true)
    ensures Propagates(mode) ==> o == DrawOptions([], false)
    ensures mode == Other ==> o == DrawOptions([], true)
    // the shape is added unless the mode propagates it, and only added shapes can be unattached
    ensures o.add <==> !Propagates(mode)
    ensures !o.add ==> o.unattached == []
    ensures forall i, j :: 0 <= i < j < |o.unattached| ==> o.unattached[i] != o.unattached[j]
    ensures Player.Z in o.unattached <==> mode == NeitherZNorT || mode == NotZ
    ensures Player.T in o.unattached <==> mode == NeitherZNorT || mode == NotT
  {
    match mode
    case NeitherZNorT => DrawOptions([Player.Z, Player.T], true)
    case NotZ => DrawOptions([Player.Z], true)
    case NotT => DrawOptions([Player.T], true)
    case AllZAndT => DrawOptions([], false)
    case AllZ => DrawOptions([], false)
    case AllT => DrawOptions([], false)
    case CustomZAndT => DrawOptions([], false)
    case Other => DrawOptions([], true)
  }

  /** The parameters of a `REGIONS_DRAW_SHAPE` notification. */
  datatype DrawParams = DrawParams(configId: JsValue, abort: JsValue, shape: JsValue, roiId: JsValue, histId: JsValue)

  /** The viewer call `drawShape` makes. */
  datatype DrawCall =
    | NoCall
    | AbortDrawing
    | Draw(shape: JsValue, roiId: JsValue, histId: JsValue, options: DrawOptions)

  function DrawShape(viewerId: int, mode: DrawingMode, p: DrawParams): (r: DrawCall)
    ensures p.configId != Num(viewerId) ==> r == NoCall
    ensures p.configId == Num(viewerId) && IsTrue(p.abort) ==> r == AbortDrawing
    ensures p.configId == Num(viewerId) && !IsTrue(p.abort) ==>
              && r.Draw?
              && r.shape == p.shape && r.roiId == p.roiId && r.histId == p.histId
              && r.options == DrawingOptions(mode)
  {
    if p.configId != Num(viewerId) then NoCall
    else if IsTrue(p.abort) then AbortDrawing
    else Draw(p.shape, p.roiId, p.histId, DrawingOptions(mode))
  }

  // ---------------------------------------------------------------------------
  // changeShapeSelection
  // ---------------------------------------------------------------------------

  /** The parameters of a selection change. */
  datatype SelectionParams = SelectionParams(configId: JsValue, shapes: JsValue, clear: JsValue)

  /** The `TheT` and `TheZ` of the first shape to be selected. */
  datatype ShapePlane = ShapePlane(theT: JsValue, theZ: JsValue)

  /** The planes switched to before selecting, and the delay of the deferred selection call. */
  datatype Selection = Selection(delay: nat, newT: Option<int>, newZ: Option<int>)

  /** A shape's plane index: its value if numeric, else -1 (no plane). */
  function PlaneOf(v: JsValue): int
  {
    if v.Num? then v.n else -1
  }

  /** The plane to switch to, if the shape has one and it is not the present one. */
  function SwitchTo(shapeIndex: JsValue, viewerIndex: int): (r: Option<int>)
    ensures r.Some? <==> shapeIndex.Num? && shapeIndex.n != -1 && shapeIndex.n != viewerIndex
    ensures r.Some? ==> r.value == shapeIndex.n
  {
    var s := PlaneOf(shapeIndex);
    if s != -1 && s != viewerIndex then Some(s) else None
  }

  function Switches(o: Option<int>): nat
  {
    if o.Some? then 1 else 0
  }

  /**
   `changeShapeSelection(params)`: `viewerT`/`viewerZ` are the viewer's present
   indices, `shape` the planes of the first shape; `None` when the handler returns.
   */
  function ChangeShapeSelection(viewerId: int, hasViewer: bool, p: SelectionParams,
                                viewerT: int, viewerZ: int, shape: ShapePlane): (r: Option<Selection>)
    ensures r.Some? <==>
              p.configId == Num(viewerId) && hasViewer && IsArray(p.shapes) && |p.shapes.items| > 0
    ensures r.Some? ==> r.value.delay == 0 || r.value.delay == 25 || r.value.delay == 50
    ensures r.Some? ==> r.value.delay == 25 * (Switches(r.value.newT) + Switches(r.value.newZ))
    ensures r.Some? && !Truthy(p.clear) ==> r.value == Selection(0, None, None)
    ensures r.Some? && Truthy(p.clear) ==>
              && (r.value.newT.Some? <==> shape.theT.Num? && shape.theT.n != -1 && shape.theT.n != viewerT)
              && (r.value.newZ.Some? <==> shape.theZ.Num? && shape.theZ.n != -1 && shape.theZ.n != viewerZ)
  {
    if p.configId != Num(viewerId) || !hasViewer || !IsArray(p.shapes) || |p.shapes.items| == 0 then None
    else if !Truthy(p.clear) then Some(Selection(0, None, None))
    else
      var t := SwitchTo(shape.theT, viewerT);
      var z := SwitchTo(shape.theZ, viewerZ);
      Some(Selection((if t.Some? then 25 else 0) + (if z.Some? then 25 else 0), t, z))
  }

  /**
   After a clearing selection the viewer shows the plane and time point of the
   shape wherever the shape has one, and keeps its own otherwise.
   */
  lemma SelectionReachesShapePlane(viewerId: int, p: SelectionParams, viewerT: int, viewerZ: int, shape: ShapePlane)
    requires p.configId == Num(viewerId) && IsArray(p.shapes) && |p.shapes.items| > 0 && Truthy(p.clear)
    ensures var s := ChangeShapeSelection(viewerId, true, p, viewerT, viewerZ, shape).value;
            var t := if s.newT.Some? then s.newT.value else viewerT;
            var z := if s.newZ.Some? then s.newZ.value else viewerZ;
            && (PlaneOf(shape.theT) != -1 ==> t == PlaneOf(shape.theT))
            && (PlaneOf(shape.theT) == -1 ==> t == viewerT)
            && (PlaneOf(shape.theZ) != -1 ==> z == PlaneOf(shape.theZ))
            && (PlaneOf(shape.theZ) == -1 ==> z == viewerZ)
            && (s.delay == 0 <==> t == viewerT && z == viewerZ)
  {
  }

  // ---------------------------------------------------------------------------
  // getRegionsPropertyChange
  // ---------------------------------------------------------------------------

  /** The parameters of a `REGIONS_PROPERTY_CHANGED` notification. */
  datatype PropertyChangeParams = PropertyChangeParams(shapes: JsValue, properties: JsValue, values: JsValue,
                                                       callback: JsValue)

  /**
   The validation: a non-empty array of shapes; a property name or an array of
   them, one per shape; a defined value or an array of them, one per shape.
   */
  predicate PropertyChangeValid(p: PropertyChangeParams)
  {
    && IsArray(p.shapes) && |p.shapes.items| != 0
    && (IsArray(p.properties) || IsString(p.properties))
    && (IsArray(p.properties) ==> |p.properties.items| == |p.shapes.items|)
    && (IsArray(p.values) || p.values != Undefined)
    && (IsArray(p.values) ==> |p.values.items| == |p.shapes.items|)
  }

  /** The shape properties the regions info records. */
  predicate Tracked(prop: JsValue)
  {
    prop == Str("selected") || prop == Str("modified") || prop == Str("deleted") || prop == Str("visible")
  }

  /** What the handler does for one shape: the property write (if tracked) and the callback (if any). */
  datatype Assignment = Assignment(shape: JsValue, prop: JsValue, value: JsValue, written: bool, notified: bool)

  /** The `i`-th entry of a per-shape argument, or the argument itself when it is not an array. */
  function Nth(v: JsValue, i: nat): JsValue
    requires IsArray(v) ==> i < |v.items|
  {
    if IsArray(v) then v.items[i] else v
  }

  /** `getRegionsPropertyChange(params)`: the per-shape steps, none when validation fails. */
  function GetRegionsPropertyChange(p: PropertyChangeParams): (r: seq<Assignment>)
    ensures |r| != 0 <==> PropertyChangeValid(p)
    ensures PropertyChangeValid(p) ==>
              && |r| == |p.shapes.items|
              && forall i :: 0 <= i < |r| ==>
                   && r[i].shape == p.shapes.items[i]
                   && r[i].prop == (if IsArray(p.properties) then p.properties.items[i] else p.properties)
                   && r[i].value == (if IsArray(p.values) then p.values.items[i] else p.values)
                   && (r[i].written <==> Tracked(r[i].prop))
                   && (r[i].notified <==> IsFunction(p.callback))
  {
    if !PropertyChangeValid(p) then []
    else
      seq(|p.shapes.items|, i requires 0 <= i < |p.shapes.items| =>
        var prop := Nth(p.properties, i);
        Assignment(p.shapes.items[i], prop, Nth(p.values, i), Tracked(prop), IsFunction(p.callback)))
  }

  /** A single property name applies to every shape; an array of them pairs up one to one. */
  lemma SinglePropertyAppliesToAll(p: PropertyChangeParams, name: string)
    requires PropertyChangeValid(p) && p.properties == Str(name)
    ensures forall a :: a in GetRegionsPropertyChange(p) ==> a.prop == Str(name)
    ensures Tracked(Str(name)) ==> forall a :: a in GetRegionsPropertyChange(p) ==> a.written
    ensures !Tracked(Str(name)) ==> forall a :: a in GetRegionsPropertyChange(p) ==> !a.written
  {
  }

  // ---------------------------------------------------------------------------
  // changeImageSettings
  // ---------------------------------------------------------------------------

  /** The parameters of an `IMAGE_SETTINGS_CHANGE` notification. */
  datatype SettingsParams = SettingsParams(configId: JsValue, model: JsValue, projection: JsValue, ranges: JsValue)

  /** The viewer calls `changeImageSettings` makes. */
  datatype SettingsCall =
    | ChangeImageModel(model: string)
    | ChangeImageProjection(projection: string)
    | ChangeChannelRange(ranges: seq<JsValue>)

  /** The order in which the calls are made. */
  function Rank(c: SettingsCall): nat
  {
    match c
    case ChangeImageModel(_) => 0
    case ChangeImageProjection(_) => 1
    case ChangeChannelRange(_) => 2
  }

  predicate SettingsChangeValid(viewerId: int, hasViewer: bool, p: SettingsParams)
  {
    p.configId == Num(viewerId) && hasViewer &&
    (IsString(p.model) || IsString(p.projection) || IsArray(p.ranges))
  }

  function ChangeImageSettings(viewerId: int, hasViewer: bool, p: SettingsParams): (r: seq<SettingsCall>)
    ensures r == [] <==> !SettingsChangeValid(viewerId, hasViewer, p)
    ensures forall m :: ChangeImageModel(m) in r <==> SettingsChangeValid(viewerId, hasViewer, p) && p.model == Str(m)
    ensures forall q :: ChangeImageProjection(q) in r <==>
                          SettingsChangeValid(viewerId, hasViewer, p) && p.projection == Str(q)
    ensures forall a :: ChangeChannelRange(a) in r <==>
                          SettingsChangeValid(viewerId, hasViewer, p) && p.ranges == Arr(a)
    // each call at most once, in the order model, projection, ranges
    ensures forall i, j :: 0 <= i < j < |r| ==> Rank(r[i]) < Rank(r[j])
  {
    if !SettingsChangeValid(viewerId, hasViewer, p) then []
    else
      (if IsString(p.model) then [ChangeImageModel(p.model.s)] else [])
      + (if IsString(p.projection) then [ChangeImageProjection(p.projection.s)] else [])
      + (if IsArray(p.ranges) then [ChangeChannelRange(p.ranges.items)] else [])
  }
}
